=== FILE: README.md ===
# Orion assistant core, modelled in Dafny

Orion is a voice and desktop assistant. It routes commands to many small "agents". This project models the parts of Orion that keep state or follow fixed rules:

- the deferred task queue (`utils/tasks.py`);
- the interaction memory document (`utils/memory.py`);
- topic notes (`utils/notes.py`) and project scaffolding (`agents/scaffold_agent.py`);
- the `.env` loader and model overrides (`utils/config.py`);
- the meeting recorder (`agents/meeting_agent.py`);
- the auto-updater, which turns LLM ideas into research tasks (`agents/updater_agent.py`);
- the single-shot JSON planner (`agent/llm_planner_agent.py`);
- the knowledge agent (`agents/knowledge_agent.py`);
- the email agent's contact and compose rules (`agents/email_agent.py`);
- the hardware gate and desktop controls (`agents/hardware_agent.py`, `agents/system_agent.py`).

The model is functional. Every store is a value, and every operation returns the new value together with the reply text the agent gives:

- the task queue file is a `seq<Task>`;
- the memory document is a record of optional fields;
- the note and project files are a path-to-content map (`Wrappers.Files`).

The outside world is a function parameter:

- HTTP and LLM requests (`Oracles.Llm`, `Knowledge.Search`, `Planner.Http`);
- `json.loads`;
- `subprocess`, `shutil.which`, `platform.system()`, `os.environ`;
- the user's typed answers;
- clock readings.

"Makes no request" is stated as: the result is the same for any two oracles.

Python string semantics are written out in `Strings`:

- `strip` uses the whitespace set of `str.isspace`;
- `splitlines` uses Python's line boundaries, with `\r\n` counted as one break;
- `s[-n:]` has its `-0` quirk;
- `split(c)[0]` and `join` behave as in Python;
- `lower`, `capitalize` and `isalnum` are ASCII only.

Modules:

- `wrappers.dfy` holds `Option` and `Files`.
- `strings.dfy` holds the Python string helpers.
- `oracles.dfy` holds the shared LLM request and reply.
- Each other file models one source file: `tasks`, `memory`, `notes`, `scaffold`, `config`, `meeting`, `knowledge`, `updater`, `planner`, `email`, `hardware` and `system` (module `SystemControl`).

## Model

| member | source | states |
|---|---|---|
| Tasks.AddTask | utils/tasks.py:17-29 | appends exactly one record with id `task-<n+1>`, the given type, payload and time, status pending and no result; earlier records are unchanged; a well-numbered store stays well-numbered |
| Tasks.AddThenList | utils/tasks.py:31-32 | listing after an add shows all earlier tasks unchanged in insertion order and the new pending one last |
| Tasks.ListTasks | utils/tasks.py:31-32 | every stored record comes back, unfiltered and in insertion order |
| Tasks.WithStatus | utils/tasks.py:39-41 | the status is overwritten; the result is written only when non-empty, otherwise the previous result is kept; id, type, payload and time are untouched |
| Tasks.FirstWithId | utils/tasks.py:37-42 | the index found holds the id and no earlier record does; it is the length when none matches |
| Tasks.UpdateTaskStatus | utils/tasks.py:34-43 | only the first record with the id changes; the length and every id are preserved |
| Tasks.UpdateUnknownId | utils/tasks.py:37-43 | an id no record carries leaves the store unchanged |
| Tasks.UpdateWellNumbered | utils/tasks.py:21-42 | in a store numbered 1..n, `task-<j+1>` rewrites exactly record j |
| Tasks.WellNumberedUnique | utils/tasks.py:21 | ids of a store numbered 1..n are pairwise distinct |
| Tasks.ReplayWellNumbered | utils/tasks.py:21-43 | any store built by `add_task` and `update_task_status` from an empty file is numbered 1..n, so its ids are distinct |
| Tasks.EnqueueAll | utils/tasks.py:17-29 | adding tasks one after another keeps the old store as a prefix and appends only pending tasks, keeping the numbering |
| Tasks.EnqueuedContents | utils/tasks.py:20-27 | the k-th added task gets id `task-<n+k+1>` and carries its own type, payload and time |
| Tasks.Settle | utils/tasks.py:51-56 | a processed task ends done when the handler returns and failed when it raises; its result becomes the returned value or the exception text when that is non-empty, and otherwise keeps the earlier result; id, type, payload and time are kept |
| Tasks.ProcessTask | utils/tasks.py:50-56 | handling a task adds exactly as many records as its handler enqueued |
| Tasks.ProcessTaskEffect | utils/tasks.py:50-56 | the first record carrying the task's id is settled with the handler's outcome; every other old record, including a later one with the same id, is unchanged, and old ids are kept |
| Tasks.ProcessWellNumbered | utils/tasks.py:50-56 | processing record i settles it, touches no other existing record, and leaves every task the handler added pending |
| Tasks.StartWorker | utils/tasks.py:46-56 | with no pending task the store is unchanged (a second run does nothing); for a store numbered 1..n (which every store built by the task operations is), each task pending in the snapshot is settled with the handler's outcome, every other snapshot task is untouched, and tasks added during the pass stay pending |
| Memory.GetContact | utils/memory.py:28-30 | present exactly when the contacts map exists and holds the name (case-sensitive), and then it is the stored address |
| Memory.RememberContact | utils/memory.py:33-38 | creates the contacts map if needed, sets this one name, keeps all other names, and leaves history, knowledge and other keys alone |
| Memory.RememberThenGet | utils/memory.py:28-38 | a lookup after remembering returns the address; lookups of other names are unaffected |
| Memory.LogInteraction | utils/memory.py:43-52 | the new entry is the newest; the history is the last min(n+1, 50) entries of old history plus the entry, in order; contacts, knowledge and other keys are unchanged |
| Memory.LogBelowCap | utils/memory.py:45-51 | below 50 entries nothing is dropped |
| Memory.LogThenRecent | utils/memory.py:43-58 | a window of one right after logging is exactly the logged entry |
| Memory.GetRecentHistory | utils/memory.py:55-58 | the newest entries in order: for limit ≥ 1 the last min(limit, n), for limit 0 the whole history, for a negative limit all but the oldest −limit; an absent history reads as empty |
| Notes.KeepSafe | utils/notes.py:10 | keeps only alphanumerics, space, `_` and `-`; a string of only such characters is kept whole |
| Notes.KeepSafeSingle | utils/notes.py:10 | one character is kept exactly when it is safe |
| Notes.KeepSafeConcat | utils/notes.py:10 | filtering a concatenation is the concatenation of the filtered parts, so every safe character is kept and every other one dropped, in order |
| Notes.SafeName | utils/notes.py:10-12 | never empty; only safe characters; no space at either end; `untitled` when nothing survives stripping, otherwise exactly the stripped safe characters (so the topic `untitled` gives `untitled` too) |
| Notes.SafeNameIdempotent | utils/notes.py:10-12 | sanitising a sanitised name changes nothing |
| Notes.SafeNameFixed | utils/notes.py:10-12 | a non-empty name of safe characters without a space at either end is its own safe name |
| Notes.TopicPath | utils/notes.py:9-13 | the path is `notes/<safe>.md` and the safe name has no `/`, so it is one file directly in the notes directory |
| Notes.SectionTitle | utils/notes.py:19-21 | the header line carries ` | source: <source>` exactly when the source is non-empty |
| Notes.AppendNote | utils/notes.py:16-24 | only the topic's file changes; an existing file keeps its content as an exact prefix; a new file starts with `# <topic>`; the content is stored stripped |
| Notes.Sections | utils/notes.py:31-43 | there are no more sections than lines, none is empty, and there are none exactly when there are no lines |
| Notes.SectionsPartition | utils/notes.py:31-43 | the sections partition the lines in order; none is empty; every section but the first opens with a `## ` line and no `## ` line appears inside a section |
| Notes.LastSections | utils/notes.py:44 | the last min(limit, n) sections for limit ≥ 1, all of them for limit 0 |
| Notes.ReadNotes | utils/notes.py:27-45 | a missing file gives "No notes found"; otherwise the chosen sections joined by a blank line, or "Notes empty" |
| Notes.FirstNoteReadsBack | utils/notes.py:16-45 | after the first note on a topic (no file yet), reading one section returns its header line and stripped content, provided the topic, time, source and stripped content hold no line break and the content does not itself start with `## ` |
| Notes.ClearNotes | utils/notes.py:48-53 | an existing file is removed and reported; a missing one is reported as an error and nothing changes; no other file changes |
| Notes.ClearThenRead | utils/notes.py:27-53 | reading after clearing reports that there are no notes |
| Scaffold.Slugify | agents/scaffold_agent.py:9-11 | never empty; only lower-case letters, digits, `-` and `_`; never starts or ends with `-`; a name whose every character maps to `-` gives `project` |
| Scaffold.SlugifyMapsEach | agents/scaffold_agent.py:9-11 | when neither end of the name maps to `-`, the slug has the name's length and each character is the name's character lower-cased, or `-` when unsafe |
| Scaffold.SlugifyStripsEnds | agents/scaffold_agent.py:9-11 | `.strip("-")` drops whole runs: for a word whose ends stay safe, surrounded on either side by characters that all become `-`, the slug is exactly the word mapped character by character (so `My App!` gives `my-app`) |
| Scaffold.SlugifyExample | agents/scaffold_agent.py:9-11 | `!My App` becomes `my-app`: the unsafe end is stripped and the inner space becomes `-` |
| Scaffold.SlugifyIdempotent | agents/scaffold_agent.py:9-11 | a slug is its own slug |
| Scaffold.SlugifyKeepsSafeName | agents/scaffold_agent.py:9-11 | a name already made of slug characters, without `-` at its ends, is unchanged |
| Scaffold.SlugIsComponent | agents/scaffold_agent.py:10-21 | a slug holds no `/` or `.`, so the project directory is one level under the root |
| Scaffold.WriteProject | agents/scaffold_agent.py:69-71 | exactly three paths are written with the template contents; every other file keeps its content |
| Scaffold.CreateFaceTracker | agents/scaffold_agent.py:14-72 | the three template files are written into `generated_projects/<slug>`, and the reply names that directory |
| Scaffold.FaceTrackerFiles | agents/scaffold_agent.py:19-72 | the face tracker writes exactly `README.md`, `requirements.txt` and `main.py`, all in `generated_projects/<slug>/`, and nothing else |
| Scaffold.ScaffoldProject | agents/scaffold_agent.py:75-79 | no template or an empty one means the face tracker; any other name than the face tracker's returns "Unknown template." and writes nothing |
| Config.ParseLine | utils/config.py:11-13 | a line is skipped exactly when, once stripped, it is empty, starts with `#`, or has no `=` |
| Config.ParsedShape | utils/config.py:14-16 | a parsed key has no `=` and no surrounding whitespace; a parsed value has no `'` at its ends |
| Config.ParseAssignment | utils/config.py:11-16 | a line `KEY=VALUE` with a plain key and an unquoted value parses back to exactly that pair, even when the value contains `=` |
| Config.SetEnvError | utils/config.py:10-17 | `os.environ[key] = value` is accepted exactly when the key is non-empty and neither key nor value holds a NUL; a refusal carries a message |
| Config.Load | utils/config.py:10-17 | loading never removes a variable and raises exactly when some assignment has an empty key or a NUL |
| Config.LoadLastWins | utils/config.py:10-17 | after a load without error, a key assigned in the file holds the value of its last assignment; every other variable is unchanged |
| Config.LoadDotenv | utils/config.py:4-8 | a missing file changes nothing |
| Config.GetModelOverrides | utils/config.py:20-27 | `router`, `chat`, `email` and `fallback` are always present, each the environment value when set (even if empty), else the default's value or `None`; other default keys are copied unchanged |
| Config.LoadedChatModelWins | utils/config.py:4-27 | a chat model set in the `.env` file wins over the default once loaded |
| Meeting.StartMeeting | agents/meeting_agent.py:13-18 | the meeting becomes active with an empty log, the start time, and the given topic or `meeting` when it is empty |
| Meeting.RecordNote | agents/meeting_agent.py:21-25 | inactive: an error and no change; active: exactly the text is appended to the log and nothing else changes |
| Meeting.StopAndSummarize | agents/meeting_agent.py:28-34 | inactive: an error and no change at all; active: the meeting ends inactive with no start time and the log kept, whatever happens next |
| Meeting.Summarised | agents/meeting_agent.py:40-57 | the state stays stopped; the notes change only when the LLM completed with a non-empty summary, which is then appended under the meeting's topic with source `meeting`; an empty summary only warns |
| Meeting.BlankTranscriptNoCall | agents/meeting_agent.py:32-37 | a log of only blank entries ends with the "no notes were captured" warning, writes no note, and gives the same result for any LLM |
| Meeting.SummaryKept | agents/meeting_agent.py:32-44 | with a non-blank entry, the LLM is asked once with the whole log as the transcript, and its reply alone decides the outcome |
| Meeting.StopKeepsLog | agents/meeting_agent.py:16-34 | stopping keeps every recorded entry; only starting clears the log |
| Knowledge.KeepPresent | agents/knowledge_agent.py:17-21 | keeps only non-empty snippets, never more than given; empty exactly when none is present |
| Knowledge.KeepPresentSingle | agents/knowledge_agent.py:18-20 | one result contributes its snippet exactly when that snippet is present and non-empty |
| Knowledge.KeepPresentConcat | agents/knowledge_agent.py:17-20 | filtering a concatenation is the concatenation of the filtered parts, so every present snippet is kept and every other one dropped, in order |
| Knowledge.KeepAllPresent | agents/knowledge_agent.py:17-21 | when every result has a snippet, all are kept in order |
| Knowledge.FetchWebSnippets | agents/knowledge_agent.py:4-24 | no key or a failed search gives `[]`; otherwise the present snippets among the first five results, in order; never more than 5, all non-empty |
| Knowledge.FetchKeepsFirstFive | agents/knowledge_agent.py:17-21 | when the first five results all have snippets, exactly those come back, in order |
| Knowledge.NoKeyNoSearch | agents/knowledge_agent.py:5-7 | without a key the search oracle is not consulted |
| Knowledge.SummarizeSnippets | agents/knowledge_agent.py:27-45 | no snippets gives `""`; a failed call or an error payload gives `""`; otherwise the stripped response |
| Knowledge.NoSnippetsNoCall | agents/knowledge_agent.py:28-29 | with no snippets the LLM is not consulted |
| Knowledge.StoreKnowledge | agents/knowledge_agent.py:54-57 | the topic maps to the summary; other topics and other memory keys are unchanged |
| Knowledge.UpdateKnowledge | agents/knowledge_agent.py:48-58 | an empty summary gives "Could not update knowledge." and memory is untouched; otherwise the summary is stored under the topic |
| Knowledge.NoKeyNoUpdate | agents/knowledge_agent.py:5-53 | without a key nothing is stored, whatever the oracles answer |
| Updater.CallLlm | agents/updater_agent.py:7-20 | an exception or an error payload gives empty text and the error; otherwise the stripped response and no error |
| Updater.NonBlankLines | agents/updater_agent.py:47 | keeps only non-blank lines, never more than given; empty exactly when every line is blank |
| Updater.NonBlankSingle | agents/updater_agent.py:47 | one line is kept exactly when it is not blank |
| Updater.NonBlankConcat | agents/updater_agent.py:47 | filtering a concatenation is the concatenation of the filtered parts, so every non-blank line is kept and every blank one dropped, in order |
| Updater.IdeaTopic | agents/updater_agent.py:47 | a topic never has whitespace at either end and is never longer than its line |
| Updater.IdeaTopicTrimsLine | agents/updater_agent.py:47 | the topic is a contiguous part of its line, and everything cut off either end is `-`, `•`, space or whitespace |
| Updater.IdeaTopicExample | agents/updater_agent.py:47 | the line `- foo` gives the topic `foo` |
| Updater.IdeaTopicOfBulleted | agents/updater_agent.py:47 | the strip is maximal: any run of `-`, `•` and spaces on either side of a word whose ends are neither those nor whitespace is removed, and exactly the word is the topic (so `-foo-` gives `foo`) |
| Updater.IdeaTopicKeepsInnerBullet | agents/updater_agent.py:47 | the two strips each run once, marks first: the line tab, `-`, `x` gives the topic `-x`, so a topic can still start with a bullet mark |
| Strings.StripByAround | agents/updater_agent.py:47 | `s.strip(chars)` removes every run of `chars` at both ends: a word whose ends are outside `chars`, padded on both sides by `chars`, strips to exactly the word |
| Updater.BareBulletEmptyTopic | agents/updater_agent.py:47 | a line that is only `-` still yields a task, with an empty topic |
| Updater.ProposeUpdates | agents/updater_agent.py:23-29 | a missing key, or no snippets, returns its error and writes nothing |
| Updater.NoSnippetsNoCall | agents/updater_agent.py:23-29 | without a key or snippets the LLM is not consulted |
| Updater.Answered | agents/updater_agent.py:37-51 | an LLM error with text, or empty ideas, leaves notes and tasks untouched; otherwise the ideas are logged |
| Updater.ProposeOutcome | agents/updater_agent.py:36-51 | an LLM failure or empty ideas write nothing; otherwise the ideas are noted under `orion_ideas` and, only with the flag set, one research task per non-blank line is appended in order |
| Updater.IdeaTaskContents | agents/updater_agent.py:46-49 | the i-th new task is a pending `research` task numbered after the store, whose topic comes from the i-th non-blank line; there are as many as non-blank lines |
| Planner.ResponseField | agent/llm_planner_agent.py:43 | the text is available exactly when the body is an object whose `response` is a string |
| Planner.CleanResponse | agent/llm_planner_agent.py:47-49 | the cleaned text is a suffix of the stripped response; it starts at the first `{` when there is one and is the whole stripped response otherwise |
| Planner.CleanDropsPreamble | agent/llm_planner_agent.py:47-49 | leading text without `{` before an object is dropped and the object is kept whole |
| Planner.PlanCommand | agent/llm_planner_agent.py:35-60 | any request or response failure gives the unknown intent; otherwise the parsed value, or the unknown intent when parsing fails |
| Planner.SingleAttempt | agent/llm_planner_agent.py:35-60 | only the reply to the one request matters: there is no retry |
| Planner.NoValidation | agent/llm_planner_agent.py:51-53 | whatever JSON parses is returned as is, without checking the agent or `info` |
| Email.RememberContact | agents/email_agent.py:32-35 | stores under the lower-cased name and overwrites no other entry |
| Email.GetContactEmail | agents/email_agent.py:37-39 | present exactly when the lower-cased name is stored; `None` otherwise |
| Email.RememberThenLookUp | agents/email_agent.py:32-39 | a remembered address is found under any case variant of the name; other lookups are unchanged |
| Email.LookUpIgnoresCase | agents/email_agent.py:37-39 | a name and its lower-cased form find the same entry |
| Email.ContactName | agents/email_agent.py:154 | the saved name has no `@` or `.` and equals, ignoring case, the address up to `@` and then up to the first `.` |
| Email.HandleReply | agents/email_agent.py:115-138 | the contact book is untouched; a reply is sent exactly when there is an unread mail, a draft, and a `yes`; it goes to the sender with `Re: ` and the subject, and its body is the draft made with the email model, or `llama3` when that is absent or empty; a drafting call that raises ends the call with that exception, sending nothing and keeping the book |
| Email.ComposeFields | agents/email_agent.py:143-147 | the subject defaults to `No Subject` and the message defaults to the subject |
| Email.Compose | agents/email_agent.py:145-164 | a missing recipient or an empty message gives a warning, saves nothing and sends nothing; otherwise the contact is saved first and the mail is sent exactly when the answer is `yes` in any case |
| Email.CancelledStillRemembers | agents/email_agent.py:154-164 | a cancelled send still remembers the recipient |
| Email.HandleEmail | agents/email_agent.py:114-164 | never sends without a `yes`; the reply branch never changes the contact book; a compose always finishes, and a call that ends in an exception sends nothing |
| Email.BranchByCommand | agents/email_agent.py:115-142 | the command alone picks the branch: a reply never uses the planner, a compose never reads the mailbox or drafts |
| Email.HandleEmailAsWritten | agents/email_agent.py:114-142 | as written, every compose raises before anything is saved or sent; a reply keeps the contact book and sends nothing when it ends in an exception |
| Email.ComposeCrashesAsWritten | agents/email_agent.py:142-164 | a concrete compose that sends and saves the contact once corrected, and crashes as written |
| Hardware.Lookup | agents/hardware_agent.py:7-26 | an entry exists exactly for a listed action and system; it is that table entry and is non-empty |
| Hardware.ExecuteHardwareAction | agents/hardware_agent.py:21-33 | without `ORION_ALLOW_HARDWARE` equal to `"1"` the disabled message and no launch; an unlisted pair is refused; a launched command is exactly the table entry |
| Hardware.OnlyListedActionsRun | agents/hardware_agent.py:7-30 | only `lock_screen` or `shutdown`, on linux, darwin or windows, can ever be launched |
| Hardware.GateBeforeLaunch | agents/hardware_agent.py:22-28 | when disabled or refused, nothing is launched and the launcher's behaviour is irrelevant |
| Hardware.LaunchReported | agents/hardware_agent.py:29-33 | success is reported exactly when the launch did not raise, and the failure carries the exception text |
| SystemControl.Run | agents/system_agent.py:6-13 | `(True, "")` on success, `(False, stderr)` on a non-zero exit, `(False, text)` on any other exception |
| SystemControl.LockScreen | agents/system_agent.py:16-27 | on linux, darwin or windows exactly one command runs; the reply is "🔒 Screen locked." exactly when it succeeded, and otherwise "❌ Failed to lock screen: " followed by the stderr text of a non-zero exit or the text of any other exception; other systems run nothing and get "❌ Unsupported OS for lock." |
| SystemControl.Volume | agents/system_agent.py:30-45 | non-Linux and a missing `pactl` each get their refusal and run nothing; on Linux with `pactl`, up runs `pactl set-sink-volume @DEFAULT_SINK@ +5%` and replies "🔊 Volume up.", down runs the same with `-5%` and replies "🔉 Volume down.", mute runs `pactl set-sink-mute @DEFAULT_SINK@ toggle` and replies "🤫 Toggled mute.", and any other action runs nothing and replies "❌ Unknown volume action."; the reply never depends on whether the command succeeded |
| SystemControl.Brightness | agents/system_agent.py:48-66 | non-Linux gets its refusal and runs nothing; on Linux, up and down run `brightnessctl set +10%` / `10%-` when `brightnessctl` is present, else `xbacklight -inc 10` / `-dec 10` when that is, and reply "💡 Brightness up." / "💡 Brightness down."; any other action, or no tool, runs nothing and gets the "tool not found" reply; the reply never depends on whether the command succeeded |
| SystemControl.RefusedExactlyWhenNothingRuns | agents/system_agent.py:30-66 | for volume and brightness, on every input, at most one command runs, and none runs exactly when the reply starts with ❌ |
| Strings.SplitJoinLines | utils/notes.py:31 | splitting lines joined by `\n` gives them back, when each is break-free and the last is non-empty |
| Strings.BlankJoinLines | agents/meeting_agent.py:32-36 | lines joined by newlines are blank exactly when every line is blank |
| Strings.SuffixSlice | utils/memory.py:51-58 | Python's `s[-n:]`: the last n items for n ≥ 1, everything for n = 0, all but the first -n for n < 0 |

## Left out

- User interface and other agents: the GUI, `main.py`, and the browser, file, calendar, translate, reminder, research, search, paper and call agents are not part of this model.
- The other planner, `agents/llm_planner_agent.py`, is not modelled. Only its signature is used, for the finding below.
- File I/O and JSON:
  - reading and writing JSON files, and `mkdir`, are not modelled;
  - the task store, memory document and contact book are values passed in and returned;
  - note and project files are a path-to-content map.
  - A corrupt JSON file, which makes the source raise, is not modelled.
- Clocks are parameters: `datetime.utcnow().isoformat()` and `time.time()`.
- Meeting.StartMeeting: the start time is an integer, where `time.time()` is a float. Nothing in the modelled code reads it back.
- Updater.ProposeOutcome: one timestamp is shared by the note and every new task, where the source reads the clock for each.
- Tasks.Task and Memory.Memory: task payloads and the memory document's other keys are string-to-string maps, not arbitrary JSON values.
- Tasks.ProcessTask: a store in which two records share an id cannot be built by the task operations (Tasks.ReplayWellNumbered). For such a store the source settles the first record with the id, and the pending one handed to the handler stays pending; the model does the same and states it in Tasks.ProcessTaskEffect, but proves nothing further there.
- Tasks.StartWorker: the `threading.Lock` is dropped, so the model is single-threaded.
- Tasks.StartWorker: a handler's only side effect is adding tasks, through `Tasks.Handled`. A handler that changes existing tasks is not modelled.
- Tasks.Status: the source stores free status strings. Only the four values it ever writes are modelled.
- Tasks.WithStatus: the source stores the handler's result, which could be any truthy value. The model uses strings.
- Text handling is ASCII-only:
  - `str.isalnum`, `str.lower` and `str.capitalize` on non-ASCII letters are not modelled, so Notes.SafeName, Scaffold.Slugify and Email.ContactName treat non-ASCII letters as unsafe or uncased;
  - whitespace and line breaks follow Python's full sets.
- Config.Load models POSIX `os.environ` errors: an empty key, or a NUL in the key or value, raises and stops the load. Windows environment rules are not modelled.
- JSON values from the LLM and the search service are simplified:
  - a non-string `response` makes `.strip()` raise, which the source catches like any other failure, so the LLM oracle must report such a reply as `Raised`;
  - a non-string `snippet` is treated as absent, whereas the source would keep a truthy one and format it into the prompt;
  - a non-string `error` is treated as its text;
  - Planner.Json numbers are integers.
- Planner.PlanCommand: `json.loads` is a parameter (`Planner.JsonParser`), not a JSON parser.
- Email: IMAP reading, SMTP sending and header decoding are not modelled.
- Email: the drafting call to `ollama.chat` is an oracle that either returns a reply text or raises, and a raise is carried as the exception text only; which exceptions occur is not modelled.
  - The mailbox is a list of unread mails.
  - Sending is recorded, and its failure is not modelled.
  - The drafting LLM and the typed answers are parameters.
- Updater.ProposeOutcome: the source writes the note before the tasks. A failure between the two steps is not modelled, so the order is not observable here.
- The prompt texts of knowledge, meeting, updater and planner are modelled. The drafting prompt of the email agent is not.

## Findings

| source | as written | input that shows it | evidently intended | confidence | as-written member | corrected member |
|---|---|---|---|---|---|---|
| agents/email_agent.py:16-142 | the compose branch calls `plan_command(natural_command, model=planner_model)`. It imports this from `agents/llm_planner_agent.py`, whose `plan_command(user_command)` has no `model` parameter and returns a string | any command without `reply to`, e.g. `mail` | call a planner that takes the model and returns a plan with an `info` object, then apply the compose rules | high, not executed | Email.HandleEmailAsWritten | Email.HandleEmail |

=== FILE: config.dfy ===
/**
 * Configuration: a minimal `.env` loader folded over the process environment,
 * and the rule by which environment variables override the model defaults.
 */
module Config {
  import opened Wrappers
  import opened Strings

  type Env = map<string, string>

  /** What one `.env` line contributes. */
  datatype Parsed = Skip | Assign(key: string, value: string)

  /**
   * One line of the loader: blank lines, `#` comments and lines without `=`
   * are skipped; otherwise split at the first `=`, strip the key, and strip
   * the value of whitespace, then of `"`, then of `'` at both ends.
   */
  function ParseLine(line: string): (p: Parsed)
    ensures var l := Strip(line);
      p.Skip? <==> (l == [] || l[0] == '#' || '=' !in l)
  {
    ParseStripped(Strip(line))
  }

  /** `ParseLine` once the line is stripped. */
  function ParseStripped(l: string): (p: Parsed)
    ensures p.Skip? <==> (l == [] || l[0] == '#' || '=' !in l)
  {
    if l == [] || l[0] == '#' || '=' !in l then Skip
    else
      var before := BeforeFirst(l, '=');
      Assign(Strip(before), StripBy(StripBy(Strip(l[|before| + 1..]), {'"'}), {'\''}))
  }

  /**
   * An assignment's key holds no `=` and has no whitespace at either end; its
   * value has no `'` at either end.
   */
  lemma ParsedShape(line: string)
    ensures var p := ParseLine(line);
      && (p.Assign? ==> '=' !in p.key)
      && (p.Assign? && p.key != [] ==> p.key[0] !in WhiteSpace && p.key[|p.key| - 1] !in WhiteSpace)
      && (p.Assign? && p.value != [] ==> p.value[0] != '\'' && p.value[|p.value| - 1] != '\'')
  {
    var l := Strip(line);
    if !(l == [] || l[0] == '#' || '=' !in l) {
      assert ParseLine(line) == ParseStripped(l);
      StripKeepsOut(BeforeFirst(l, '='), '=');
    }
  }

  /** Stripping never introduces a character. */
  lemma StripKeepsOut(s: string, c: char)
    requires c !in s
    ensures c !in Strip(s)
  {
    StripByKeeps(s, WhiteSpace, x => x != c);
  }

  /**
   * A line `KEY=VALUE` whose key is a plain stripped name and whose value is
   * already stripped and unquoted parses back to exactly that pair, even when
   * the value itself contains `=`.
   */
  lemma ParseAssignment(key: string, value: string)
    requires key != [] && '=' !in key && key[0] != '#'
    requires key[0] !in WhiteSpace && key[|key| - 1] !in WhiteSpace
    requires value != [] ==> value[0] !in WhiteSpace + {'"', '\''} && value[|value| - 1] !in WhiteSpace + {'"', '\''}
    ensures ParseLine(key + "=" + value) == Assign(key, value)
  {
    var line := key + "=" + value;
    assert line[|key|] == '=';
    assert line[..|key|] == key;
    assert line[|key| + 1..] == value;
    assert Strip(line) == line by {
      assert '=' !in WhiteSpace;
      StripByFixed(line, WhiteSpace);
    }
    assert ParseLine(line) == ParseStripped(line);
    ParseSplit(line, |key|);
    StripByFixed(key, WhiteSpace);
    StripByFixed(value, WhiteSpace);
    StripByFixed(value, {'"'});
    StripByFixed(value, {'\''});
  }

  /** A stripped line with its first `=` at `i` splits there. */
  lemma ParseSplit(line: string, i: nat)
    requires i < |line| && line[i] == '=' && '=' !in line[..i]
    requires line[0] != '#'
    ensures ParseStripped(line) == Assign(Strip(line[..i]), StripBy(StripBy(Strip(line[i + 1..]), {'"'}), {'\''}))
  {
    BeforeFirstAt(line, '=', i);
  }

  /** The outcome of `load_dotenv`: the environment, and the error that stopped it, if any. */
  datatype Loaded = Loaded(env: Env, error: Option<string>)

  /** Why `os.environ[key] = value` refuses a pair (POSIX `putenv`), if it does. */
  function SetEnvError(key: string, value: string): (err: Option<string>)
    ensures err.None? <==> key != [] && '\0' !in key && '\0' !in value
    ensures err.Some? ==> err.value != ""
  {
    if '\0' in key || '\0' in value then Some("embedded null byte")
    else if key == [] then Some("illegal environment variable name")
    else None
  }

  /** Every line of a file, parsed. */
  function ParseAll(lines: seq<string>): (ps: seq<Parsed>)
    ensures |ps| == |lines|
    ensures forall i :: 0 <= i < |lines| ==> ps[i] == ParseLine(lines[i])
  {
    seq(|lines|, i requires 0 <= i < |lines| => ParseLine(lines[i]))
  }

  /** An assignment that `os.environ` accepts. */
  predicate Accepted(p: Parsed) {
    p.Assign? ==> SetEnvError(p.key, p.value).None?
  }

  /** The value the last assignment to `key` gives it, if any assigns it. */
  function LastValue(ps: seq<Parsed>, key: string): Option<string>
    decreases |ps|
  {
    if ps == [] then None
    else
      var later := LastValue(ps[1..], key);
      if later.Some? then later
      else if ps[0].Assign? && ps[0].key == key then Some(ps[0].value)
      else None
  }

  /**
   * The loop of `load_dotenv` over the parsed lines, in order: the first
   * assignment `os.environ` refuses raises, leaving the earlier ones in place.
   */
  function Load(env: Env, ps: seq<Parsed>): (r: Loaded)
    ensures env.Keys <= r.env.Keys
    ensures r.error.None? <==> forall i :: 0 <= i < |ps| ==> Accepted(ps[i])
    decreases |ps|
  {
    if ps == [] then Loaded(env, None)
    else match ps[0]
      case Skip => Load(env, ps[1..])
      case Assign(k, v) =>
        var err := SetEnvError(k, v);
        if err.Some? then Loaded(env, err)
        else
          var r := Load(env[k := v], ps[1..]);
          assert forall i :: 1 <= i < |ps| ==> ps[i] == ps[1..][i - 1];
          r
  }

  /**
   * When loading completes without error, a key some line assigns ends with
   * the value of the last such line, and every other key is as it was.
   */
  lemma {:induction false} LoadLastWins(env: Env, ps: seq<Parsed>, key: string)
    requires Load(env, ps).error == None
    ensures var r := Load(env, ps).env;
      && (LastValue(ps, key).Some? ==> key in r && r[key] == LastValue(ps, key).value)
      && (LastValue(ps, key).None? ==> (key in r <==> key in env) && (key in env ==> r[key] == env[key]))
    decreases |ps|
  {
    if ps != [] {
      match ps[0]
      case Skip =>
        LoadLastWins(env, ps[1..], key);
      case Assign(k, v) =>
        LoadLastWins(env[k := v], ps[1..], key);
    }
  }

  /** `load_dotenv(path)`: a missing file changes nothing. */
  function LoadDotenv(env: Env, file: Option<string>): (r: Loaded)
    ensures file.None? ==> r == Loaded(env, None)
    ensures env.Keys <= r.env.Keys
  {
    match file
    case None => Loaded(env, None)
    case Some(text) => Load(env, ParseAll(SplitLines(text)))
  }

  /** A model default: a name, or Python's `None`. */
  type Defaults = map<string, Option<string>>

  /** `overrides.get(role)` then `os.environ.get(var, that)`. */
  function Pick(defaults: Defaults, env: Env, role: string, variable: string): Option<string> {
    if variable in env then Some(env[variable])
    else if role in defaults then defaults[role]
    else None
  }

  /**
   * `get_model_overrides`: a copy of the defaults in which `router`, `chat`,
   * `email` and `fallback` are always present, each the environment's value
   * when its variable is set (even to an empty string), else the default's
   * value, possibly `None`.
   */
  function GetModelOverrides(defaults: Defaults, env: Env): (r: Defaults)
    ensures r.Keys == defaults.Keys + {"router", "chat", "email", "fallback"}
    ensures forall role :: role in defaults && role !in {"router", "chat", "email", "fallback"} ==>
      r[role] == defaults[role]
    ensures "ORION_MODEL_ROUTER" in env ==> r["router"] == Some(env["ORION_MODEL_ROUTER"])
    ensures "ORION_MODEL_ROUTER" !in env ==> r["router"] == (if "router" in defaults then defaults["router"] else None)
    ensures "ORION_MODEL_CHAT" in env ==> r["chat"] == Some(env["ORION_MODEL_CHAT"])
    ensures "ORION_MODEL_CHAT" !in env ==> r["chat"] == (if "chat" in defaults then defaults["chat"] else None)
    ensures "ORION_MODEL_EMAIL" in env ==> r["email"] == Some(env["ORION_MODEL_EMAIL"])
    ensures "ORION_MODEL_EMAIL" !in env ==> r["email"] == (if "email" in defaults then defaults["email"] else None)
    ensures "ORION_MODEL_FALLBACK" in env ==> r["fallback"] == Some(env["ORION_MODEL_FALLBACK"])
    ensures "ORION_MODEL_FALLBACK" !in env ==> r["fallback"] == (if "fallback" in defaults then defaults["fallback"] else None)
  {
    var o1 := defaults["router" := Pick(defaults, env, "router", "ORION_MODEL_ROUTER")];
    var o2 := o1["chat" := Pick(o1, env, "chat", "ORION_MODEL_CHAT")];
    var o3 := o2["email" := Pick(o2, env, "email", "ORION_MODEL_EMAIL")];
    o3["fallback" := Pick(o3, env, "fallback", "ORION_MODEL_FALLBACK")]
  }

  /** A `.env` file that sets the chat model wins over the default once loaded. */
  lemma LoadedChatModelWins(env: Env, text: string, defaults: Defaults, model: string)
    requires LoadDotenv(env, Some(text)).error == None
    requires LastValue(ParseAll(SplitLines(text)), "ORION_MODEL_CHAT") == Some(model)
    ensures GetModelOverrides(defaults, LoadDotenv(env, Some(text)).env)["chat"] == Some(model)
  {
    LoadLastWins(env, ParseAll(SplitLines(text)), "ORION_MODEL_CHAT");
  }
}

=== FILE: email.dfy ===
/**
 * The email agent's decision rules: a contact book keyed by lower-cased
 * name, the reply-or-compose split, the defaults of a composed mail, and the
 * confirmation gate before anything is sent. Mailbox, drafting LLM, planner
 * and the user's answers are parameters.
 */
module Email {
  import opened Wrappers
  import opened Strings

  /** `contacts.json`: lower-cased name to address. */
  type Contacts = map<string, string>

  /** `remember_contact`: stores under the lower-cased name. */
  function RememberContact(book: Contacts, name: string, addr: string): (r: Contacts)
    ensures r.Keys == book.Keys + {Lower(name)}
    ensures r[Lower(name)] == addr
    ensures forall n :: n in book && n != Lower(name) ==> r[n] == book[n]
  {
    book[Lower(name) := addr]
  }

  /** `get_contact_email`: looks the lower-cased name up. */
  function GetContactEmail(book: Contacts, name: string): (r: Option<string>)
    ensures r.Some? <==> Lower(name) in book
    ensures r.Some? ==> r.value == book[Lower(name)]
  {
    if Lower(name) in book then Some(book[Lower(name)]) else None
  }

  /**
   * A remembered address is found under any spelling of the name that
   * lower-cases alike, and no other name's lookup changes.
   */
  lemma RememberThenLookUp(book: Contacts, name: string, addr: string, query: string)
    ensures Lower(query) == Lower(name) ==> GetContactEmail(RememberContact(book, name, addr), query) == Some(addr)
    ensures Lower(query) != Lower(name) ==>
      GetContactEmail(RememberContact(book, name, addr), query) == GetContactEmail(book, query)
  {
  }

  /** Looking up ignores ASCII case: a name and its lower-cased form find the same entry. */
  lemma LookUpIgnoresCase(book: Contacts, name: string)
    ensures GetContactEmail(book, name) == GetContactEmail(book, Lower(name))
  {
    LowerIdempotent(name);
  }

  /** The contact name derived from an address: local part, up to the first `.`, capitalised. */
  function ContactName(addr: string): (name: string)
    ensures '@' !in name && '.' !in name
    ensures Lower(name) == Lower(BeforeFirst(BeforeFirst(addr, '@'), '.'))
  {
    var local := BeforeFirst(BeforeFirst(addr, '@'), '.');
    var name := Capitalize(local);
    assert forall i :: 0 <= i < |name| ==> name[i] != '@' && name[i] != '.' by {
      CapitalizeKeepsPunctuation(local);
    }
    name
  }

  /** Case mapping leaves `@` and `.` where they were, and makes none. */
  lemma CapitalizeKeepsPunctuation(s: string)
    requires '@' !in s && '.' !in s
    ensures forall i :: 0 <= i < |Capitalize(s)| ==> Capitalize(s)[i] != '@' && Capitalize(s)[i] != '.'
  {
    var r := Capitalize(s);
    forall i | 0 <= i < |r|
      ensures r[i] != '@' && r[i] != '.'
    {
      assert LowerChar(r[i]) == Lower(r)[i] == Lower(s)[i] == LowerChar(s[i]);
      assert s[i] != '@' && s[i] != '.';
    }
  }

  /** The reply branch is taken when the lower-cased command mentions `reply to`. */
  predicate IsReply(command: string) {
    ContainsInfix(Lower(command), "reply to")
  }

  /** An unread message as `read_unread_emails` reports it. */
  datatype Mail = Mail(sender: string, subject: string, body: string)

  /** A mail handed to `send_email`. */
  datatype Outgoing = Outgoing(to: string, subject: string, body: string)

  /** A drafting request: the instruction, the mail replied to, and the model. */
  datatype DraftRequest = DraftRequest(instruction: string, context: Option<string>, model: string)

  /**
   * What the drafting LLM gives: the stripped reply text, which is `""` when
   * the model answers with nothing, or the exception `ollama.chat` raised,
   * which nothing catches.
   */
  datatype DraftReply = Drafted(text: string) | DraftRaised(error: string)

  type Drafter = DraftRequest -> DraftReply

  /** The user's two answers at the prompts. */
  datatype Answers = Answers(instruction: string, confirm: string)

  /** Ran to its end with a last notice, or stopped by an exception. */
  datatype Outcome = Finished(notice: string) | Crashed(error: string)

  /** The contact book after the call, what was sent, and how it ended. */
  datatype Handled = Handled(book: Contacts, sent: Option<Outgoing>, outcome: Outcome)

  /** The user said yes, in any case. */
  predicate Confirmed(answer: string) {
    Lower(answer) == "yes"
  }

  const Sent := "\U{2705} Email sent successfully."

  /** `model or "llama3"`: an absent or empty model name falls back to `llama3`. */
  function DraftModel(model: Option<string>): (name: string)
    ensures name != ""
    ensures model.Some? && model.value != "" ==> name == model.value
  {
    if model.Some? && model.value != "" then model.value else "llama3"
  }

  /** The drafting request for a reply to the newest unread mail. */
  function ReplyRequest(unread: seq<Mail>, answers: Answers, emailModel: Option<string>): DraftRequest
    requires unread != []
  {
    DraftRequest(answers.instruction, Some(unread[0].body), DraftModel(emailModel))
  }

  /**
   * The reply branch: answer the newest unread mail after confirmation. A
   * drafter that raises ends the call with its exception.
   */
  function HandleReply(book: Contacts, unread: seq<Mail>, answers: Answers, emailModel: Option<string>,
                       draft: Drafter): (r: Handled)
    ensures r.book == book
    ensures r.outcome.Crashed? <==> unread != [] && draft(ReplyRequest(unread, answers, emailModel)).DraftRaised?
    ensures r.outcome.Crashed? ==> r.outcome.error == draft(ReplyRequest(unread, answers, emailModel)).error
    ensures r.sent.Some? <==> (unread != [] && Confirmed(answers.confirm)
      && draft(ReplyRequest(unread, answers, emailModel)).Drafted?
      && draft(ReplyRequest(unread, answers, emailModel)).text != "")
    ensures r.sent.Some? ==> r.sent.value.to == unread[0].sender && r.sent.value.subject == "Re: " + unread[0].subject
    ensures r.sent.Some? ==> r.sent.value.body == draft(ReplyRequest(unread, answers, emailModel)).text
  {
    if unread == [] then Handled(book, None, Finished("\U{1F4ED} No unread emails."))
    else
      var latest := unread[0];
      match draft(ReplyRequest(unread, answers, emailModel))
      case DraftRaised(e) => Handled(book, None, Crashed(e))
      case Drafted(reply) =>
        if reply == "" then Handled(book, None, Finished("\U{274C} Could not generate reply without Ollama."))
        else if Confirmed(answers.confirm) then
          Handled(book, Some(Outgoing(latest.sender, "Re: " + latest.subject, reply)), Finished(Sent))
        else Handled(book, None, Finished("\U{274C} Reply cancelled."))
  }

  /** The fields of a composed mail: recipient, subject (default `No Subject`), message (default the subject). */
  datatype Fields = Fields(to: Option<string>, subject: string, message: string)

  function ComposeFields(info: map<string, string>): (f: Fields)
    ensures f.to == (if "recipient" in info then Some(info["recipient"]) else None)
    ensures "subject" !in info ==> f.subject == "No Subject"
    ensures "message" !in info ==> f.message == f.subject
    ensures "subject" in info ==> f.subject == info["subject"]
    ensures "message" in info ==> f.message == info["message"]
  {
    var subject := if "subject" in info then info["subject"] else "No Subject";
    Fields(if "recipient" in info then Some(info["recipient"]) else None, subject,
      if "message" in info then info["message"] else subject)
  }

  /** Enough to send: a non-empty recipient and a non-empty message. */
  predicate Usable(f: Fields) {
    f.to.Some? && f.to.value != "" && f.message != ""
  }

  const NoInfo := "\U{26A0}\U{FE0F} Could not extract email info from the command."

  /**
   * The compose branch given the planner's `info`: the contact is saved as
   * soon as the fields are usable, then the mail is sent only on `yes`.
   */
  function Compose(book: Contacts, info: map<string, string>, confirm: string): (r: Handled)
    ensures r.outcome.Finished?
    ensures !Usable(ComposeFields(info)) ==> r == Handled(book, None, Finished(NoInfo))
    ensures Usable(ComposeFields(info)) ==> var f := ComposeFields(info);
      && r.book == RememberContact(book, ContactName(f.to.value), f.to.value)
      && (r.sent.Some? <==> Confirmed(confirm))
      && (r.sent.Some? ==> r.sent.value == Outgoing(f.to.value, f.subject, f.message))
  {
    var f := ComposeFields(info);
    if !Usable(f) then Handled(book, None, Finished(NoInfo))
    else
      var saved := RememberContact(book, ContactName(f.to.value), f.to.value);
      if Confirmed(confirm) then Handled(saved, Some(Outgoing(f.to.value, f.subject, f.message)), Finished(Sent))
      else Handled(saved, None, Finished("\U{274C} Email cancelled."))
  }

  /** The planner the compose branch consults: the `info` object of its plan for a command and model. */
  type InfoPlanner = (string, Option<string>) -> map<string, string>

  /**
   * `handle_email_instruction` with the planner call it evidently intends: a
   * planner returning a plan whose `info` is used.
   */
  function HandleEmail(book: Contacts, command: string, unread: seq<Mail>, answers: Answers,
                       plannerModel: Option<string>, emailModel: Option<string>,
                       planner: InfoPlanner, draft: Drafter): (r: Handled)
    ensures !IsReply(command) ==> r.outcome.Finished?
    ensures r.outcome.Crashed? ==> r.sent.None?
    ensures r.sent.Some? ==> Confirmed(answers.confirm)
    ensures IsReply(command) ==> r.book == book
  {
    if IsReply(command) then HandleReply(book, unread, answers, emailModel, draft)
    else Compose(book, planner(command, plannerModel), answers.confirm)
  }

  /**
   * Which branch runs is decided by the command alone: a reply never consults
   * the planner, a compose never the mailbox or the drafter.
   */
  lemma BranchByCommand(book: Contacts, command: string, unread1: seq<Mail>, unread2: seq<Mail>, answers: Answers,
                        plannerModel: Option<string>, emailModel: Option<string>,
                        planner1: InfoPlanner, planner2: InfoPlanner, draft1: Drafter, draft2: Drafter)
    ensures IsReply(command) ==>
      HandleEmail(book, command, unread1, answers, plannerModel, emailModel, planner1, draft1)
      == HandleEmail(book, command, unread1, answers, plannerModel, emailModel, planner2, draft1)
    ensures !IsReply(command) ==>
      HandleEmail(book, command, unread1, answers, plannerModel, emailModel, planner1, draft1)
      == HandleEmail(book, command, unread2, answers, plannerModel, emailModel, planner1, draft2)
  {
  }

  /** A cancelled compose still remembers the recipient. */
  lemma CancelledStillRemembers(book: Contacts, info: map<string, string>, confirm: string)
    requires Usable(ComposeFields(info)) && !Confirmed(confirm)
    ensures var r := Compose(book, info, confirm);
      var to := info["recipient"];
      r.sent.None? && GetContactEmail(r.book, ContactName(to)) == Some(to)
  {
  }

  /** The error every compose hits as written: the planner takes no `model` argument. */
  const PlannerTypeError := "TypeError: plan_command() got an unexpected keyword argument 'model'"

  /**
   * `handle_email_instruction` as written: the compose branch calls the
   * imported `plan_command(user_command)` with a `model=` keyword, which
   * raises before anything is saved or sent.
   */
  function HandleEmailAsWritten(book: Contacts, command: string, unread: seq<Mail>, answers: Answers,
                                emailModel: Option<string>, draft: Drafter): (r: Handled)
    ensures IsReply(command) ==> r.book == book && (r.outcome.Crashed? ==> r.sent.None?)
    ensures !IsReply(command) ==> r == Handled(book, None, Crashed(PlannerTypeError))
  {
    if IsReply(command) then HandleReply(book, unread, answers, emailModel, draft)
    else Handled(book, None, Crashed(PlannerTypeError))
  }

  /**
   * A witness of the difference: composing to `b@x` with a message and a
   * `YES` sends the mail and remembers `B` under `b` once the planner
   * call is corrected, but crashes with nothing sent as written.
   */
  lemma ComposeCrashesAsWritten(book: Contacts, planner: InfoPlanner, draft: Drafter)
    requires planner("mail", None) == map["recipient" := "b@x", "message" := "hi"]
    ensures !IsReply("mail")
    ensures HandleEmailAsWritten(book, "mail", [], Answers("", "YES"), None, draft).sent.None?
    ensures HandleEmailAsWritten(book, "mail", [], Answers("", "YES"), None, draft).outcome.Crashed?
    ensures var r := HandleEmail(book, "mail", [], Answers("", "YES"), None, None, planner, draft);
      && r.sent == Some(Outgoing("b@x", "No Subject", "hi"))
      && r.book == book["b" := "b@x"]
  {
    NotAReply();
    BobContact();
    assert Lower("YES") == "yes";
  }

  lemma NotAReply()
    ensures !IsReply("mail")
  {
  }

  lemma BobContact()
    ensures ContactName("b@x") == "B"
    ensures Lower("B") == "b"
  {
    BeforeFirstAt("b@x", '@', 1);
    assert "b@x"[..1] == "b";
    assert BeforeFirst("b", '.') == "b";
    assert Capitalize("b") == [UpperChar('b')] + Lower([]);
  }
}

=== FILE: hardware.dfy ===
/**
 * The hardware gate: an environment flag, then a fixed table of actions and
 * the command each runs on each operating system. Launching is an oracle.
 */
module Hardware {
  import opened Wrappers
  import opened Strings

  type Command = seq<string>

  /** `ALLOWED_ACTIONS`: action, then lower-cased system name, then the command. */
  const AllowedActions: map<string, map<string, Command>> := map[
    "lock_screen" := map[
      "linux" := ["loginctl", "lock-session"],
      "darwin" := ["osascript", "-e", "tell application \"System Events\" to keystroke \"q\" using {control down, command down}"],
      "windows" := ["rundll32.exe", "user32.dll,LockWorkStation"]],
    "shutdown" := map[
      "linux" := ["shutdown", "-h", "now"],
      "darwin" := ["shutdown", "-h", "now"],
      "windows" := ["shutdown", "/s", "/t", "0"]]]

  /** `subprocess.Popen(cmd)`: `None` when it starts, else the exception text. */
  type Launcher = Command -> Option<string>

  /** The command handed to `Popen`, if any, and the reply. */
  datatype Executed = Executed(attempted: Option<Command>, message: string)

  const Disabled := "\U{274C} Hardware control disabled (set ORION_ALLOW_HARDWARE=1 to enable)."

  /** The table entry for an action on a system, if there is one. */
  function Lookup(action: string, system: string): (cmd: Option<Command>)
    ensures cmd.Some? <==> action in AllowedActions && system in AllowedActions[action]
    ensures cmd.Some? ==> cmd.value == AllowedActions[action][system] && cmd.value != []
  {
    if action in AllowedActions && system in AllowedActions[action] then Some(AllowedActions[action][system])
    else None
  }

  /**
   * `execute_hardware_action`. `flag` is `ORION_ALLOW_HARDWARE` and `platform`
   * the value of `platform.system()`.
   */
  function ExecuteHardwareAction(flag: Option<string>, platform: string, action: string, launch: Launcher): (r: Executed)
    ensures flag != Some("1") ==> r == Executed(None, Disabled)
    ensures r.attempted.Some? ==> flag == Some("1") && r.attempted == Lookup(action, Lower(platform))
    ensures flag == Some("1") && Lookup(action, Lower(platform)).Some? ==> r.attempted.Some?
    ensures flag == Some("1") && Lookup(action, Lower(platform)).None? ==>
      r.message == "\U{274C} Action '" + action + "' not allowed or unsupported on " + Lower(platform) + "."
  {
    if flag != Some("1") then Executed(None, Disabled)
    else
      var system := Lower(platform);
      match Lookup(action, system)
      case None => Executed(None, "\U{274C} Action '" + action + "' not allowed or unsupported on " + system + ".")
      case Some(cmd) =>
        match launch(cmd)
        case None => Executed(Some(cmd), "\U{2699}\U{FE0F} Executed hardware action: " + action)
        case Some(e) => Executed(Some(cmd), "\U{274C} Hardware action failed: " + e)
  }

  /** Only locking the screen or shutting down, on Linux, macOS or Windows, ever reaches `Popen`. */
  lemma OnlyListedActionsRun(flag: Option<string>, platform: string, action: string, launch: Launcher)
    requires ExecuteHardwareAction(flag, platform, action, launch).attempted.Some?
    ensures action == "lock_screen" || action == "shutdown"
    ensures Lower(platform) == "linux" || Lower(platform) == "darwin" || Lower(platform) == "windows"
  {
    var system := Lower(platform);
    assert action in AllowedActions && system in AllowedActions[action];
    assert AllowedActions.Keys == {"lock_screen", "shutdown"};
    assert AllowedActions["lock_screen"].Keys == {"linux", "darwin", "windows"};
    assert AllowedActions["shutdown"].Keys == {"linux", "darwin", "windows"};
  }

  /** Disabled or refused, nothing is launched: the result is the same whatever the launcher does. */
  lemma GateBeforeLaunch(flag: Option<string>, platform: string, action: string, launch1: Launcher, launch2: Launcher)
    requires flag != Some("1") || Lookup(action, Lower(platform)).None?
    ensures ExecuteHardwareAction(flag, platform, action, launch1) == ExecuteHardwareAction(flag, platform, action, launch2)
    ensures ExecuteHardwareAction(flag, platform, action, launch1).attempted.None?
  {
  }

  /** A launch reports success exactly when `Popen` did not raise. */
  lemma LaunchReported(platform: string, action: string, launch: Launcher)
    requires Lookup(action, Lower(platform)).Some?
    ensures var cmd := Lookup(action, Lower(platform)).value;
      var r := ExecuteHardwareAction(Some("1"), platform, action, launch);
      && (launch(cmd).None? ==> r.message == "\U{2699}\U{FE0F} Executed hardware action: " + action)
      && (launch(cmd).Some? ==> r.message == "\U{274C} Hardware action failed: " + launch(cmd).value)
  {
  }
}

=== FILE: knowledge.dfy ===
/**
 * The knowledge agent: web snippets from a search oracle, an LLM summary of
 * them, and the summary kept in memory under its topic.
 */
module Knowledge {
  import opened Wrappers
  import opened Strings
  import opened Oracles
  import opened Memory

  /** A SerpAPI search for `query`. */
  datatype SearchRequest = SearchRequest(query: string, apiKey: string)

  /**
   * A failed search (an exception), or the `snippet` field of each organic
   * result in order, absent where a result has none. A missing
   * `organic_results` key is the empty list.
   */
  datatype SearchReply = SearchFailed(reason: string) | Organic(snippets: seq<Option<string>>)

  type Search = SearchRequest -> SearchReply

  /** Only the first five organic results are looked at. */
  const ResultCap := 5

  predicate Present(snippet: Option<string>) {
    snippet.Some? && snippet.value != ""
  }

  /** The present snippets, in order. */
  function KeepPresent(results: seq<Option<string>>): (r: seq<string>)
    ensures |r| <= |results|
    ensures forall i :: 0 <= i < |r| ==> r[i] != ""
    ensures r == [] <==> forall i :: 0 <= i < |results| ==> !Present(results[i])
    decreases |results|
  {
    if results == [] then []
    else
      var rest := KeepPresent(results[1..]);
      assert forall i :: 1 <= i < |results| ==> results[i] == results[1..][i - 1];
      if Present(results[0]) then [results[0].value] + rest else rest
  }

  /** When every result has a snippet, all of them are kept, in order. */
  lemma {:induction false} KeepAllPresent(results: seq<Option<string>>)
    requires forall i :: 0 <= i < |results| ==> Present(results[i])
    ensures KeepPresent(results) == seq(|results|, i requires 0 <= i < |results| => results[i].GetOr(""))
    decreases |results|
  {
    if results != [] {
      KeepAllPresent(results[1..]);
    }
  }

  /** A one-result list keeps its snippet exactly when it is present. */
  lemma KeepPresentSingle(x: Option<string>)
    ensures KeepPresent([x]) == if Present(x) then [x.value] else []
  {
    assert [x][1..] == [];
  }

  /**
   * Filtering distributes over concatenation; with `KeepPresentSingle` this
   * says every present snippet is kept, every absent one dropped, in order.
   */
  lemma {:induction false} KeepPresentConcat(a: seq<Option<string>>, b: seq<Option<string>>)
    ensures KeepPresent(a + b) == KeepPresent(a) + KeepPresent(b)
    decreases |a|
  {
    if a == [] {
      assert a + b == b;
    } else {
      assert (a + b)[1..] == a[1..] + b;
      KeepPresentConcat(a[1..], b);
    }
  }

  /** `fetch_web_snippets`: no request without a key; any failure gives no snippets. */
  function FetchWebSnippets(query: string, apiKey: string, search: Search): (r: seq<string>)
    ensures apiKey == "" ==> r == []
    ensures |r| <= ResultCap
    ensures forall i :: 0 <= i < |r| ==> r[i] != ""
    ensures apiKey != "" && search(SearchRequest(query, apiKey)).SearchFailed? ==> r == []
    ensures apiKey != "" && search(SearchRequest(query, apiKey)).Organic? ==>
      var rs := search(SearchRequest(query, apiKey)).snippets;
      r == KeepPresent(rs[..if |rs| < ResultCap then |rs| else ResultCap])
  {
    if apiKey == "" then []
    else match search(SearchRequest(query, apiKey))
      case SearchFailed(_) => []
      case Organic(results) =>
        var first := if |results| <= ResultCap then results else results[..ResultCap];
        assert first == results[..if |results| < ResultCap then |results| else ResultCap];
        KeepPresent(first)
  }

  /** Without a key the search oracle is never consulted. */
  lemma NoKeyNoSearch(query: string, search1: Search, search2: Search)
    ensures FetchWebSnippets(query, "", search1) == FetchWebSnippets(query, "", search2) == []
  {
  }

  /** The first five results, when all carry snippets, come back as they are. */
  lemma FetchKeepsFirstFive(query: string, apiKey: string, search: Search)
    requires apiKey != ""
    requires search(SearchRequest(query, apiKey)).Organic?
    requires var rs := search(SearchRequest(query, apiKey)).snippets;
      forall i :: 0 <= i < |rs| && i < ResultCap ==> Present(rs[i])
    ensures var rs := search(SearchRequest(query, apiKey)).snippets;
      var n := if |rs| < ResultCap then |rs| else ResultCap;
      FetchWebSnippets(query, apiKey, search) == seq(n, i requires 0 <= i < n => rs[i].GetOr(""))
  {
    var rs := search(SearchRequest(query, apiKey)).snippets;
    KeepAllPresent(if |rs| <= ResultCap then rs else rs[..ResultCap]);
  }

  function SummaryPrompt(snippets: seq<string>): string {
    "Summarize the following web snippets into a concise update (3 bullets max):\n\n" + Bullets(snippets)
  }

  /** `summarize_snippets`: `""` with no snippets (and no request) or on any LLM failure. */
  function SummarizeSnippets(snippets: seq<string>, model: string, url: string, llm: Llm): (r: string)
    ensures snippets == [] ==> r == ""
    ensures snippets != [] ==> var reply := llm(GenerateRequest(GenerateUrl(url), model, SummaryPrompt(snippets)));
      (!reply.Completed? ==> r == "") && (reply.Completed? ==> r == ResponseText(reply.response))
  {
    if snippets == [] then ""
    else match llm(GenerateRequest(GenerateUrl(url), model, SummaryPrompt(snippets)))
      case Completed(response) => ResponseText(response)
      case _ => ""
  }

  /** No snippets, no LLM call. */
  lemma NoSnippetsNoCall(model: string, url: string, llm1: Llm, llm2: Llm)
    ensures SummarizeSnippets([], model, url, llm1) == SummarizeSnippets([], model, url, llm2) == ""
  {
  }

  datatype Updated = Updated(memory: Memory, message: string)

  const NotUpdated := "\U{274C} Could not update knowledge."

  /** The memory write of `update_knowledge`. */
  function StoreKnowledge(m: Memory, topic: string, summary: string): (m': Memory)
    ensures m'.knowledge.Some? && topic in m'.knowledge.value && m'.knowledge.value[topic] == summary
    ensures forall t :: t != topic ==>
      (t in m'.knowledge.value <==> m.knowledge.Some? && t in m.knowledge.value)
      && (t in m'.knowledge.value ==> m'.knowledge.value[t] == m.knowledge.value[t])
    ensures m'.history == m.history && m'.contacts == m.contacts && m'.others == m.others
  {
    m.(knowledge := Some(m.knowledge.GetOr(map[])[topic := summary]))
  }

  /**
   * `update_knowledge`: an empty summary leaves memory as it was; otherwise
   * the summary is stored under the topic.
   */
  function UpdateKnowledge(m: Memory, topic: string, apiKey: string, model: string, url: string,
                           search: Search, llm: Llm): (r: Updated)
    ensures var summary := SummarizeSnippets(FetchWebSnippets(topic, apiKey, search), model, url, llm);
      && (summary == "" ==> r == Updated(m, NotUpdated))
      && (summary != "" ==> r.memory == StoreKnowledge(m, topic, summary))
  {
    var summary := SummarizeSnippets(FetchWebSnippets(topic, apiKey, search), model, url, llm);
    if summary == "" then Updated(m, NotUpdated)
    else Updated(StoreKnowledge(m, topic, summary), "\U{1F4DA} Knowledge updated for '" + topic + "':\n" + summary)
  }

  /** Without a key nothing is fetched, summarised or stored, whatever the oracles. */
  lemma NoKeyNoUpdate(m: Memory, topic: string, model: string, url: string, search: Search, llm: Llm)
    ensures UpdateKnowledge(m, topic, "", model, url, search, llm) == Updated(m, NotUpdated)
  {
  }
}

=== FILE: meeting.dfy ===
/**
 * The meeting recorder: one process-wide state record moved by three
 * operations. The summary comes from an LLM oracle and is kept as a note.
 */
module Meeting {
  import opened Wrappers
  import opened Strings
  import opened Oracles
  import Notes

  /** `MEETING_STATE`; `startedAt` is the clock reading taken at start. */
  datatype MeetingState = MeetingState(active: bool, topic: string, log: seq<string>, startedAt: Option<int>)

  const Idle := MeetingState(false, "", [], None)

  datatype Step = Step(state: MeetingState, message: string)

  /** `start_meeting`: a fresh, active recording under `topic`, or `meeting` when it is empty. */
  function StartMeeting(st: MeetingState, topic: string, now: int): (r: Step)
    ensures r.state.active && r.state.log == [] && r.state.startedAt == Some(now)
    ensures r.state.topic == if topic == "" then "meeting" else topic
    ensures r.message == "\U{1F7E2} Recording meeting on '" + r.state.topic + "'. Say 'stop meeting' when done."
  {
    var name := if topic == "" then "meeting" else topic;
    Step(MeetingState(true, name, [], Some(now)),
      "\U{1F7E2} Recording meeting on '" + name + "'. Say 'stop meeting' when done.")
  }

  /** `record_note`: appends exactly `text` while active; otherwise an error and no change. */
  function RecordNote(st: MeetingState, text: string): (r: Step)
    ensures !st.active ==> r.state == st
    ensures !st.active ==> r.message == "\U{274C} No active meeting. Say 'start meeting about <topic>'."
    ensures st.active ==> r.state == st.(log := st.log + [text])
    ensures st.active ==> r.message == "\U{1F4DD} Captured: " + text
  {
    if !st.active then Step(st, "\U{274C} No active meeting. Say 'start meeting about <topic>'.")
    else Step(st.(log := st.log + [text]), "\U{1F4DD} Captured: " + text)
  }

  datatype Stopped = Stopped(state: MeetingState, files: Files, message: string)

  const NothingCaptured := "\U{26A0}\U{FE0F} Meeting ended, but no notes were captured."
  const EmptySummary := "\U{26A0}\U{FE0F} Meeting ended, but summary was empty."

  /** The summarisation prompt, transcript last. */
  function SummaryPrompt(context: string, topic: string, transcript: string): string {
    "Summarize this meeting for work follow-up. Provide 3-7 bullets with action items if present.\nContext: "
      + context + "\nTopic: " + topic + "\nTranscript:\n" + transcript
  }

  /** What stopping does with the LLM's reply: only a non-empty summary is written. */
  function Summarised(stopped: MeetingState, fs: Files, reply: GenerateReply, ts: string): (r: Stopped)
    ensures r.state == stopped
    ensures !(reply.Completed? && ResponseText(reply.response) != "") ==> r.files == fs
    ensures reply.Completed? && ResponseText(reply.response) != "" ==>
      r.files == Notes.AppendNote(fs, stopped.topic, ResponseText(reply.response), "meeting", ts).files
    ensures reply.Completed? && ResponseText(reply.response) == "" ==> r.message == EmptySummary
  {
    match reply
    case Raised(e) => Stopped(stopped, fs, "\U{274C} Summarization failed: " + e)
    case ErrorField(e) => Stopped(stopped, fs, "\U{274C} Summarization error: " + e)
    case Completed(response) =>
      var summary := ResponseText(response);
      if summary == "" then Stopped(stopped, fs, EmptySummary)
      else
        Stopped(stopped, Notes.AppendNote(fs, stopped.topic, summary, "meeting", ts).files,
          "\U{1F6D1} Meeting ended.\n\U{1F4C4} Summary:\n" + summary)
  }

  /**
   * `stop_and_summarize`. `ts` is the note's timestamp. The meeting is marked
   * stopped before anything can fail; the log is kept.
   */
  function StopAndSummarize(st: MeetingState, fs: Files, model: string, url: string, context: string,
                            ts: string, llm: Llm): (r: Stopped)
    ensures !st.active ==> r == Stopped(st, fs, "\U{274C} No active meeting to stop.")
    ensures st.active ==> r.state == st.(active := false, startedAt := None)
  {
    if !st.active then Stopped(st, fs, "\U{274C} No active meeting to stop.")
    else
      var stopped := st.(active := false, startedAt := None);
      var transcript := Join("\n", st.log);
      if IsBlank(transcript) then Stopped(stopped, fs, NothingCaptured)
      else Summarised(stopped, fs, llm(GenerateRequest(GenerateUrl(url), model, SummaryPrompt(context, st.topic, transcript))), ts)
  }

  /**
   * A transcript of only blank entries ends the meeting with a warning, writes
   * no note, and makes no LLM call: any two oracles give the same result.
   */
  lemma BlankTranscriptNoCall(st: MeetingState, fs: Files, model: string, url: string, context: string,
                              ts: string, llm1: Llm, llm2: Llm)
    requires st.active
    requires forall i :: 0 <= i < |st.log| ==> IsBlank(st.log[i])
    ensures StopAndSummarize(st, fs, model, url, context, ts, llm1) == StopAndSummarize(st, fs, model, url, context, ts, llm2)
    ensures StopAndSummarize(st, fs, model, url, context, ts, llm1) == Stopped(st.(active := false, startedAt := None), fs, NothingCaptured)
  {
    BlankJoinLines(st.log);
  }

  /**
   * A non-blank entry makes the recorder ask the LLM, with the whole log as
   * the transcript, and the reply alone decides what is kept.
   */
  lemma SummaryKept(st: MeetingState, fs: Files, model: string, url: string, context: string,
                    ts: string, llm: Llm, i: nat)
    requires st.active && i < |st.log| && !IsBlank(st.log[i])
    ensures var reply := llm(GenerateRequest(GenerateUrl(url), model, SummaryPrompt(context, st.topic, Join("\n", st.log))));
      StopAndSummarize(st, fs, model, url, context, ts, llm) == Summarised(st.(active := false, startedAt := None), fs, reply, ts)
  {
    BlankJoinLines(st.log);
  }

  /** Recording then stopping keeps every captured entry: only a new start clears the log. */
  lemma StopKeepsLog(st: MeetingState, text: string, fs: Files, model: string, url: string, context: string,
                     ts: string, llm: Llm)
    requires st.active
    ensures StopAndSummarize(RecordNote(st, text).state, fs, model, url, context, ts, llm).state.log == st.log + [text]
  {
  }
}

=== FILE: memory.dfy ===
/**
 * The interaction memory document: a JSON object whose `history`, `contacts`
 * and `knowledge` keys the assistant reads and writes. A missing key is `None`;
 * every other key of the document is carried along untouched in `others`.
 */
module Memory {
  import opened Wrappers
  import opened Strings

  datatype Entry = Entry(command: string, agent: string, result: string)

  datatype Memory = Memory(
    history: Option<seq<Entry>>,
    contacts: Option<map<string, string>>,
    knowledge: Option<map<string, string>>,
    others: map<string, string>)

  /** What `load_memory` yields when the file does not exist. */
  const EmptyMemory := Memory(None, None, None, map[])

  /** `log_interaction` keeps only this many of the newest entries. */
  const HistoryCap := 50

  /** `get_contact`: the stored address, or `None` when absent. Names are case-sensitive here. */
  function GetContact(m: Memory, name: string): (r: Option<string>)
    ensures r.Some? <==> m.contacts.Some? && name in m.contacts.value
    ensures r.Some? ==> r.value == m.contacts.value[name]
  {
    var contacts := m.contacts.GetOr(map[]);
    if name in contacts then Some(contacts[name]) else None
  }

  /** `remember_contact`: creates `contacts` if absent and writes one entry. */
  function RememberContact(m: Memory, name: string, email: string): (m': Memory)
    ensures m'.contacts.Some? && name in m'.contacts.value && m'.contacts.value[name] == email
    ensures forall n :: n != name ==>
      (n in m'.contacts.value <==> m.contacts.Some? && n in m.contacts.value)
    ensures m'.history == m.history && m'.knowledge == m.knowledge && m'.others == m.others
  {
    m.(contacts := Some(m.contacts.GetOr(map[])[name := email]))
  }

  /** Remembering then looking up gives the address back; other names are unaffected. */
  lemma RememberThenGet(m: Memory, name: string, email: string, other: string)
    ensures GetContact(RememberContact(m, name, email), name) == Some(email)
    ensures other != name ==>
      GetContact(RememberContact(m, name, email), other) == GetContact(m, other)
  {
  }

  /**
   * `log_interaction`: appends the entry as the newest one and keeps the last
   * 50 (`history[-50:]`); nothing but `history` changes.
   */
  function LogInteraction(m: Memory, command: string, agent: string, result: string): (m': Memory)
    ensures m'.history.Some?
    ensures var h := m.history.GetOr([]) + [Entry(command, agent, result)];
      && |m'.history.value| == (if |h| < HistoryCap then |h| else HistoryCap)
      && m'.history.value == h[|h| - |m'.history.value|..]
    ensures m'.history.value[|m'.history.value| - 1] == Entry(command, agent, result)
    ensures m'.contacts == m.contacts && m'.knowledge == m.knowledge && m'.others == m.others
  {
    var h := m.history.GetOr([]) + [Entry(command, agent, result)];
    m.(history := Some(SuffixSlice(h, HistoryCap)))
  }

  /**
   * `get_recent_history(limit)`, Python's `history[-limit:]`: for `limit >= 1`
   * the newest `min(limit, n)` entries in order; `limit == 0` gives the whole
   * history because `-0 == 0`; a negative limit drops the oldest `-limit`.
   */
  function GetRecentHistory(m: Memory, limit: int): (r: seq<Entry>)
    ensures var h := m.history.GetOr([]);
      && |r| <= |h| && r == h[|h| - |r|..]
      && (limit >= 1 ==> |r| == if limit < |h| then limit else |h|)
      && (limit == 0 ==> r == h)
      && (limit < 0 ==> |r| == if |h| + limit > 0 then |h| + limit else 0)
  {
    SuffixSlice(m.history.GetOr([]), limit)
  }

  /** The entry just logged is the whole of a one-entry window. */
  lemma LogThenRecent(m: Memory, command: string, agent: string, result: string)
    ensures GetRecentHistory(LogInteraction(m, command, agent, result), 1) == [Entry(command, agent, result)]
  {
    var h := LogInteraction(m, command, agent, result).history.value;
    assert h[|h| - 1..] == [h[|h| - 1]];
  }

  /** Below the cap nothing is dropped: the history grows by exactly the new entry. */
  lemma LogBelowCap(m: Memory, command: string, agent: string, result: string)
    requires |m.history.GetOr([])| < HistoryCap
    ensures LogInteraction(m, command, agent, result).history
            == Some(m.history.GetOr([]) + [Entry(command, agent, result)])
  {
  }
}

=== FILE: notes.dfy ===
/**
 * Topic notes: one Markdown file per topic under `notes/`, grown by appending
 * timestamped `## ` sections and read back section by section. The notes
 * directory is a map from path to file content.
 */
module Notes {
  import opened Wrappers
  import opened Strings

  const NotesDir := "notes"

  /** Characters `_topic_path` keeps: alphanumerics, space, `_` and `-`. */
  predicate SafeChar(c: char) {
    IsAlnum(c) || c == ' ' || c == '_' || c == '-'
  }

  /** The characters of `s` that are safe, in order. */
  function KeepSafe(s: string): (r: string)
    ensures forall i :: 0 <= i < |r| ==> SafeChar(r[i])
    ensures (forall i :: 0 <= i < |s| ==> SafeChar(s[i])) ==> r == s
    decreases |s|
  {
    if s == [] then []
    else if SafeChar(s[0]) then [s[0]] + KeepSafe(s[1..])
    else KeepSafe(s[1..])
  }

  /** A one-character text keeps its character exactly when it is safe. */
  lemma KeepSafeSingle(c: char)
    ensures KeepSafe([c]) == if SafeChar(c) then [c] else []
  {
    assert [c][1..] == [];
  }

  /**
   * Filtering distributes over concatenation; with `KeepSafeSingle` this says
   * every safe character is kept, every other one dropped, in order.
   */
  lemma {:induction false} KeepSafeConcat(a: string, b: string)
    ensures KeepSafe(a + b) == KeepSafe(a) + KeepSafe(b)
    decreases |a|
  {
    if a == [] {
      assert a + b == b;
    } else {
      assert (a + b)[1..] == a[1..] + b;
      KeepSafeConcat(a[1..], b);
    }
  }

  /** The stem of a topic's file name: safe characters only, stripped, `untitled` if empty. */
  function SafeName(topic: string): (safe: string)
    ensures safe != []
    ensures forall i :: 0 <= i < |safe| ==> SafeChar(safe[i])
    ensures safe[0] != ' ' && safe[|safe| - 1] != ' '
    ensures Strip(KeepSafe(topic)) == [] ==> safe == "untitled"
    ensures Strip(KeepSafe(topic)) != [] ==> safe == Strip(KeepSafe(topic))
  {
    StripByKeeps(KeepSafe(topic), WhiteSpace, SafeChar);
    var safe := Strip(KeepSafe(topic));
    if safe == [] then "untitled" else safe
  }

  /** Sanitising an already sanitised name changes nothing. */
  lemma SafeNameIdempotent(topic: string)
    ensures SafeName(SafeName(topic)) == SafeName(topic)
  {
    SafeNameFixed(SafeName(topic));
  }

  /** A non-empty name of safe characters without a space at either end is kept. */
  lemma SafeNameFixed(s: string)
    requires s != [] && forall i :: 0 <= i < |s| ==> SafeChar(s[i])
    requires s[0] != ' ' && s[|s| - 1] != ' '
    ensures SafeName(s) == s
  {
    assert KeepSafe(s) == s;
    SafeCharNotSpace(s[0]);
    SafeCharNotSpace(s[|s| - 1]);
    StripByFixed(s, WhiteSpace);
  }

  lemma SafeCharNotSpace(c: char)
    requires SafeChar(c) && c != ' '
    ensures c !in WhiteSpace
  {
  }

  /** `_topic_path`: `notes/<safe>.md`, a file directly inside the notes directory. */
  function TopicPath(topic: string): (path: string)
    ensures path == NotesDir + "/" + SafeName(topic) + ".md"
    ensures '/' !in SafeName(topic)
  {
    SafeCharsNoSlash(SafeName(topic));
    NotesDir + "/" + SafeName(topic) + ".md"
  }

  lemma SafeCharsNoSlash(s: string)
    requires forall i :: 0 <= i < |s| ==> SafeChar(s[i])
    ensures '/' !in s
  {
    assert !SafeChar('/');
  }

  /** The header line `## <ts> UTC`, with ` | source: <source>` when a source is given. */
  function SectionTitle(ts: string, source: string): (h: string)
    ensures StartsWith(h, "## " + ts + " UTC")
    ensures source != "" ==> h == "## " + ts + " UTC" + " | source: " + source
    ensures source == "" ==> h == "## " + ts + " UTC"
  {
    var header := "## " + ts + " UTC";
    if source != "" then header + " | source: " + source else header
  }

  /** The section header, two blank lines then the header line. */
  function SectionHeader(ts: string, source: string): string {
    "\n\n" + SectionTitle(ts, source)
  }

  /** The text `append_note` adds: header, stripped content, final newline. */
  function SectionText(content: string, source: string, ts: string): string {
    SectionHeader(ts, source) + "\n" + Strip(content) + "\n"
  }

  datatype Saved = Saved(files: Files, message: string)

  /**
   * `append_note`: a new file starts with `# <topic>` and the section; an
   * existing file keeps its content as an exact prefix. No other file changes.
   */
  function AppendNote(fs: Files, topic: string, content: string, source: string, ts: string): (r: Saved)
    ensures r.files.Keys == fs.Keys + {TopicPath(topic)}
    ensures forall p :: p in fs && p != TopicPath(topic) ==> r.files[p] == fs[p]
    ensures TopicPath(topic) in fs ==>
      r.files[TopicPath(topic)] == fs[TopicPath(topic)] + SectionText(content, source, ts)
    ensures TopicPath(topic) !in fs ==>
      r.files[TopicPath(topic)] == "# " + topic + "\n" + SectionText(content, source, ts)
    ensures r.message == "\U{1F4DD} Note saved to " + TopicPath(topic)
  {
    var path := TopicPath(topic);
    var text := SectionText(content, source, ts);
    var updated := if path in fs then fs[path] + text else "# " + topic + "\n" + text;
    Saved(fs[path := updated], "\U{1F4DD} Note saved to " + path)
  }

  predicate IsSectionStart(line: string) {
    StartsWith(line, "## ")
  }

  /** Concatenation of a sequence of line groups. */
  function Flatten(groups: seq<seq<string>>): seq<string>
  {
    if groups == [] then [] else Flatten(groups[..|groups| - 1]) + groups[|groups| - 1]
  }

  lemma FlattenAppend(groups: seq<seq<string>>, group: seq<string>)
    ensures Flatten(groups + [group]) == Flatten(groups) + group
  {
    assert (groups + [group])[..|groups|] == groups;
  }

  /**
   * Line groups as `read_notes` forms them: none is empty, every group but
   * the first opens with a `## ` line, and no `## ` line sits anywhere but at
   * the head of a group.
   */
  predicate Grouped(groups: seq<seq<string>>) {
    && (forall j :: 0 <= j < |groups| ==> groups[j] != [])
    && (forall j :: 0 < j < |groups| ==> IsSectionStart(groups[j][0]))
    && (forall j, k :: 0 <= j < |groups| && 0 < k < |groups[j]| ==> !IsSectionStart(groups[j][k]))
  }

  /** A `## ` line, or the very first line, opens a new group. */
  lemma OpenGroup(groups: seq<seq<string>>, line: string)
    requires Grouped(groups) && (IsSectionStart(line) || groups == [])
    ensures Grouped(groups + [[line]])
    ensures Flatten(groups + [[line]]) == Flatten(groups) + [line]
  {
    FlattenAppend(groups, [line]);
  }

  /** Any other line joins the last group. */
  lemma ExtendGroup(groups: seq<seq<string>>, line: string)
    requires Grouped(groups) && groups != [] && !IsSectionStart(line)
    ensures var extended := groups[..|groups| - 1] + [groups[|groups| - 1] + [line]];
      && Grouped(extended)
      && Flatten(extended) == Flatten(groups) + [line]
  {
    var init := groups[..|groups| - 1];
    var last := groups[|groups| - 1];
    assert groups == init + [last];
    FlattenAppend(init, last);
    FlattenAppend(init, last + [line]);
  }

  /**
   * The grouping loop of `read_notes`: a new section opens at every `## ` line
   * (and at the first line); any other line joins the section before it.
   */
  function Sections(lines: seq<string>): (groups: seq<seq<string>>)
    ensures |groups| <= |lines|
    ensures groups == [] <==> lines == []
    ensures forall i :: 0 <= i < |groups| ==> groups[i] != []
    decreases |lines|
  {
    if lines == [] then []
    else
      var rest := Sections(lines[..|lines| - 1]);
      var line := lines[|lines| - 1];
      if IsSectionStart(line) || rest == [] then rest + [[line]]
      else rest[..|rest| - 1] + [rest[|rest| - 1] + [line]]
  }

  /** The sections partition the lines, in order, and are grouped as `read_notes` groups them. */
  lemma {:induction false} SectionsPartition(lines: seq<string>)
    ensures Flatten(Sections(lines)) == lines
    ensures Grouped(Sections(lines))
    decreases |lines|
  {
    if lines != [] {
      var prefix := lines[..|lines| - 1];
      var line := lines[|lines| - 1];
      var rest := Sections(prefix);
      SectionsPartition(prefix);
      assert lines == prefix + [line];
      if IsSectionStart(line) || rest == [] {
        OpenGroup(rest, line);
      } else {
        ExtendGroup(rest, line);
      }
    }
  }

  /** Each section rendered as its lines joined by `\n`. */
  function RenderSections(groups: seq<seq<string>>): (texts: seq<string>)
    ensures |texts| == |groups|
    ensures forall j :: 0 <= j < |groups| ==> texts[j] == Join("\n", groups[j])
  {
    seq(|groups|, j requires 0 <= j < |groups| => Join("\n", groups[j]))
  }

  function NoNotesMessage(topic: string): string {
    "\U{274C} No notes found for '" + topic + "'."
  }

  /** The sections `read_notes` returns: the last `limit` of them (`sections[-limit:]`). */
  function LastSections(text: string, limit: int): (r: seq<string>)
    ensures var all := RenderSections(Sections(SplitLines(text)));
      && |r| <= |all| && r == all[|all| - |r|..]
      && (limit >= 1 ==> |r| == if limit < |all| then limit else |all|)
      && (limit == 0 ==> r == all)
  {
    SuffixSlice(RenderSections(Sections(SplitLines(text))), limit)
  }

  /**
   * `read_notes`: the last `limit` sections joined by a blank line; a missing
   * file or an empty selection gives the corresponding message instead.
   */
  function ReadNotes(fs: Files, topic: string, limit: int): (r: string)
    ensures TopicPath(topic) !in fs ==> r == NoNotesMessage(topic)
    ensures TopicPath(topic) in fs ==>
      var snippet := Join("\n\n", LastSections(fs[TopicPath(topic)], limit));
      r == if snippet != "" then snippet else "\U{274C} Notes empty for '" + topic + "'."
  {
    var path := TopicPath(topic);
    if path !in fs then NoNotesMessage(topic)
    else
      var snippet := Join("\n\n", LastSections(fs[path], limit));
      if snippet != "" then snippet else "\U{274C} Notes empty for '" + topic + "'."
  }

  /** `clear_notes`: removes the topic's file if it exists; otherwise nothing changes. */
  function ClearNotes(fs: Files, topic: string): (r: Saved)
    ensures TopicPath(topic) !in r.files
    ensures forall p :: p != TopicPath(topic) ==> (p in r.files <==> p in fs) && (p in fs ==> r.files[p] == fs[p])
    ensures TopicPath(topic) !in fs ==> r.files == fs && r.message == NoNotesMessage(topic)
    ensures TopicPath(topic) in fs ==> r.message == "\U{1F5D1}\U{FE0F} Cleared notes for '" + topic + "'."
  {
    var path := TopicPath(topic);
    if path in fs then Saved(fs - {path}, "\U{1F5D1}\U{FE0F} Cleared notes for '" + topic + "'.")
    else Saved(fs, NoNotesMessage(topic))
  }

  /** After clearing, reading the topic reports that there are no notes. */
  lemma ClearThenRead(fs: Files, topic: string, limit: int)
    ensures ReadNotes(ClearNotes(fs, topic).files, topic, limit) == NoNotesMessage(topic)
  {
  }

  /** Adding a line that does not open a section extends the last section. */
  lemma SectionsExtend(lines: seq<string>, line: string)
    requires lines != [] && !IsSectionStart(line)
    ensures var rest := Sections(lines);
      Sections(lines + [line]) == rest[..|rest| - 1] + [rest[|rest| - 1] + [line]]
  {
    assert (lines + [line])[..|lines|] == lines;
  }

  /** A line that opens a section starts a new one. */
  lemma SectionsOpen(lines: seq<string>, line: string)
    requires IsSectionStart(line)
    ensures Sections(lines + [line]) == Sections(lines) + [[line]]
  {
    assert (lines + [line])[..|lines|] == lines;
  }

  /** The five lines of a fresh note file fall into the title section and the note's section. */
  lemma FreshNoteSections(title: string, header: string, c: string)
    requires !IsSectionStart(title) && IsSectionStart(header) && !IsSectionStart(c)
    ensures Sections([title, "", "", header, c]) == [[title, "", ""], [header, c]]
  {
    assert Sections([title]) == [[title]] by {
      assert [title] == [] + [title];
    }
    SectionsExtend([title], "");
    assert [title] + [""] == [title, ""];
    assert Sections([title, ""]) == [[title, ""]];
    SectionsExtend([title, ""], "");
    assert [title, ""] + [""] == [title, "", ""];
    assert Sections([title, "", ""]) == [[title, "", ""]];
    SectionsOpen([title, "", ""], header);
    assert [title, "", ""] + [header] == [title, "", "", header];
    assert Sections([title, "", "", header]) == [[title, "", ""], [header]];
    SectionsExtend([title, "", "", header], c);
    assert [title, "", "", header] + [c] == [title, "", "", header, c];
    var rest := Sections([title, "", "", header]);
    assert rest[..|rest| - 1] == [[title, "", ""]];
    assert rest[|rest| - 1] + [c] == [header, c];
  }

  /** The five lines of a fresh note file, joined. */
  lemma FiveLines(title: string, header: string, c: string)
    ensures title + "\n" + ("\n\n" + header + "\n" + c + "\n") == Join("\n", [title, "", "", header, c]) + "\n"
  {
    assert Join("\n", [c]) == c;
    JoinCons("\n", header, [c]);
    assert [header] + [c] == [header, c];
    JoinCons("\n", "", [header, c]);
    assert [""] + [header, c] == ["", header, c];
    JoinCons("\n", "", ["", header, c]);
    assert [""] + ["", header, c] == ["", "", header, c];
    JoinCons("\n", title, ["", "", header, c]);
    assert [title] + ["", "", header, c] == [title, "", "", header, c];
  }

  /** A fresh note file is its five lines joined by newlines, plus a final newline. */
  lemma FreshNoteText(topic: string, content: string, source: string, ts: string)
    ensures "# " + topic + "\n" + SectionText(content, source, ts)
            == Join("\n", ["# " + topic, "", "", SectionTitle(ts, source), Strip(content)]) + "\n"
  {
    FiveLines("# " + topic, SectionTitle(ts, source), Strip(content));
  }

  /** The header line of a section has no line break when its parts have none. */
  lemma TitleLine(ts: string, source: string)
    requires NoBreaks(ts) && NoBreaks(source)
    ensures NoBreaks(SectionTitle(ts, source))
    ensures IsSectionStart(SectionTitle(ts, source))
  {
    var base := "## " + ts + " UTC";
    NoBreaksConcat("## ", ts);
    NoBreaksConcat("## " + ts, " UTC");
    assert base[..3] == "## ";
    if source != "" {
      NoBreaksConcat(base, " | source: ");
      NoBreaksConcat(base + " | source: ", source);
      assert SectionTitle(ts, source)[..3] == "## ";
    }
  }

  /** The rendered sections of a fresh note file, read with limit 1. */
  lemma FreshNoteLast(text: string, title: string, header: string, c: string)
    requires NoBreaks(title) && NoBreaks(header) && NoBreaks(c)
    requires !IsSectionStart(title) && IsSectionStart(header) && !IsSectionStart(c)
    requires text == Join("\n", [title, "", "", header, c]) + "\n"
    ensures LastSections(text, 1) == [header + "\n" + c]
  {
    var lines := [title, "", "", header, c];
    SplitJoinLinesNewline(lines);
    FreshNoteSections(title, header, c);
    var rendered := RenderSections([[title, "", ""], [header, c]]);
    assert rendered[1] == Join("\n", [header, c]) == header + "\n" + c;
    assert SuffixSlice(rendered, 1) == [rendered[1]];
  }

  /** The `# <topic>` title line never opens a section. */
  lemma TitleNotSection(topic: string)
    ensures !IsSectionStart("# " + topic)
  {
    var t := "# " + topic;
    assert t[1] == ' ';
    if |t| >= 3 {
      assert t[..3][1] == ' ';
    }
  }

  /** Reading with a single selected non-empty section returns that section. */
  lemma ReadSingleSection(fs: Files, topic: string, x: string)
    requires TopicPath(topic) in fs && LastSections(fs[TopicPath(topic)], 1) == [x] && x != ""
    ensures ReadNotes(fs, topic, 1) == x
  {
    assert Join("\n\n", [x]) == x;
  }

  /** The newest section of a fresh note file's text is the note just written. */
  lemma FreshTextNewest(topic: string, content: string, source: string, ts: string)
    requires NoBreaks(topic) && NoBreaks(ts) && NoBreaks(source)
    requires NoBreaks(Strip(content)) && !IsSectionStart(Strip(content))
    ensures LastSections("# " + topic + "\n" + SectionText(content, source, ts), 1)
            == [SectionTitle(ts, source) + "\n" + Strip(content)]
  {
    TitleLine(ts, source);
    NoBreaksConcat("# ", topic);
    TitleNotSection(topic);
    FreshNoteText(topic, content, source, ts);
    FreshNoteLast("# " + topic + "\n" + SectionText(content, source, ts),
                  "# " + topic, SectionTitle(ts, source), Strip(content));
  }

  /** The newest section of a fresh note file is the note just written. */
  lemma FreshNoteNewest(fs: Files, topic: string, content: string, source: string, ts: string)
    requires TopicPath(topic) !in fs
    requires NoBreaks(topic) && NoBreaks(ts) && NoBreaks(source)
    requires NoBreaks(Strip(content)) && !IsSectionStart(Strip(content))
    ensures var fs' := AppendNote(fs, topic, content, source, ts).files;
      && TopicPath(topic) in fs'
      && LastSections(fs'[TopicPath(topic)], 1) == [SectionTitle(ts, source) + "\n" + Strip(content)]
  {
    FreshTextNewest(topic, content, source, ts);
  }

  /**
   * A first note on a topic reads back as its own newest section: header line
   * and stripped content.
   */
  lemma FirstNoteReadsBack(fs: Files, topic: string, content: string, source: string, ts: string)
    requires TopicPath(topic) !in fs
    requires NoBreaks(topic) && NoBreaks(ts) && NoBreaks(source)
    requires NoBreaks(Strip(content)) && !IsSectionStart(Strip(content))
    ensures ReadNotes(AppendNote(fs, topic, content, source, ts).files, topic, 1)
            == SectionTitle(ts, source) + "\n" + Strip(content)
  {
    FreshNoteNewest(fs, topic, content, source, ts);
    ReadSingleSection(AppendNote(fs, topic, content, source, ts).files, topic,
                      SectionTitle(ts, source) + "\n" + Strip(content));
  }
}

=== FILE: oracles.dfy ===
/**
 * The outside world as the agents see it. Every HTTP, LLM or subprocess call
 * is a function parameter of one of these types, so a model says exactly
 * which request it makes and what it does with each possible reply.
 */
module Oracles {
  import opened Wrappers
  import opened Strings

  /** One POST to Ollama's `/api/generate` with `stream: false`. */
  datatype GenerateRequest = GenerateRequest(url: string, model: string, prompt: string)

  /**
   * What the caller gets back: an exception (connection, HTTP status or a body
   * that is not JSON), a payload carrying `error`, or a payload whose
   * `response` field is present or absent.
   */
  datatype GenerateReply =
    | Raised(reason: string)
    | ErrorField(error: string)
    | Completed(response: Option<string>)

  type Llm = GenerateRequest -> GenerateReply

  /** The Ollama endpoint below a base URL. */
  function GenerateUrl(base: string): string {
    base + "/api/generate"
  }

  /** `payload.get("response", "").strip()` of a completed reply. */
  function ResponseText(response: Option<string>): (text: string)
    ensures response.None? ==> text == []
    ensures |text| <= |response.GetOr("")|
  {
    Strip(response.GetOr(""))
  }

  /** `"\n".join(f"- {s}" for s in snippets)`: one bullet line per snippet. */
  function Bullets(snippets: seq<string>): (r: string)
    ensures snippets == [] <==> r == []
  {
    Join("\n", seq(|snippets|, i requires 0 <= i < |snippets| => "- " + snippets[i]))
  }
}

=== FILE: planner.dfy ===
/**
 * The single-shot LLM planner: one request to Ollama, the reply cut to start
 * at its first `{`, parsed as JSON and returned unchecked; any failure gives
 * the unknown intent.
 */
module Planner {
  import opened Wrappers
  import opened Strings

  /** A JSON value as `json.loads` returns it (numbers kept as integers). */
  datatype Json =
    | JNull
    | JBool(b: bool)
    | JNum(n: int)
    | JStr(s: string)
    | JArr(items: seq<Json>)
    | JObj(fields: map<string, Json>)

  /** `{"agent": "unknown", "info": {}}`. */
  const UnknownIntent := JObj(map["agent" := JStr("unknown"), "info" := JObj(map[])])

  const OllamaUrl := "http://localhost:11434/api/generate"
  const PlannerModel := "codellama:instruct"

  /** The one request: model, prompt, no streaming, stop at a blank line. */
  datatype PlanRequest = PlanRequest(url: string, model: string, prompt: string, stop: seq<string>)

  /** The POST raised, or its body was not JSON, or it was this JSON value. */
  datatype PlanReply = PostFailed(reason: string) | NotJson | Body(body: Json)

  type Http = PlanRequest -> PlanReply

  /** `json.loads`, on the cleaned text: `None` when it raises. */
  type JsonParser = string -> Option<Json>

  /** The planner's instructions and examples, up to the opening quotes of the command. */
  const PromptHead: string := @"
You are Orion's planner module. Read the user's natural language command and return a JSON object with:
- ""agent"": one of [file, email, browser, search, calendar, reminder, translate, unknown]
- ""info"": contains only the extracted values needed for that agent

Respond ONLY in valid JSON format.
DO NOT include any explanation, markdown, or extra text.

Examples:

Command: Translate thank you to Arabic
→ {""agent"": ""translate"", ""info"": {""text"": ""thank you"", ""language"": ""ar""}}

Command: Translate good night to French
→ {""agent"": ""translate"", ""info"": {""text"": ""good night"", ""language"": ""fr""}}

Command: Schedule project presentation on 2025-06-30 15:00
→ {""agent"": ""calendar"", ""info"": {""event"": ""project presentation"", ""datetime"": ""2025-06-30 15:00""}}

Command: Remind me to check oven at 2025-06-24 21:00
→ {""agent"": ""reminder"", ""info"": {""task"": ""check oven"", ""datetime"": ""2025-06-24 21:00""}}

Command: """""""

  /** The planner prompt with the user's command between triple quotes. */
  function PlannerPrompt(command: string): string {
    PromptHead + command + "\"\"\"\n"
  }

  function Request(command: string): PlanRequest {
    PlanRequest(OllamaUrl, PlannerModel, PlannerPrompt(command), ["\n\n"])
  }

  /** `response.json()["response"]`, when the body is an object whose `response` is a string. */
  function ResponseField(reply: PlanReply): (r: Option<string>)
    ensures r.Some? <==> reply.Body? && reply.body.JObj? && "response" in reply.body.fields
                         && reply.body.fields["response"].JStr?
    ensures r.Some? ==> r.value == reply.body.fields["response"].s
  {
    match reply
    case Body(JObj(fields)) =>
      if "response" in fields && fields["response"].JStr? then Some(fields["response"].s) else None
    case _ => None
  }

  /**
   * The stripped response from its first `{` on, or the whole stripped
   * response when it has none.
   */
  function CleanResponse(result: string): (clean: string)
    ensures var s := Strip(result);
      && |clean| <= |s| && clean == s[|s| - |clean|..]
      && ('{' in s ==> clean != [] && clean[0] == '{' && '{' !in s[..|s| - |clean|])
      && ('{' !in s ==> clean == s)
  {
    var s := Strip(result);
    if '{' in s then s[IndexOf(s, '{')..] else s
  }

  /**
   * Leading chatter before the object is dropped: a stripped reply made of a
   * `{`-free preamble and a text starting with `{` cleans to that text.
   */
  lemma CleanDropsPreamble(result: string, preamble: string, json: string)
    requires Strip(result) == preamble + json
    requires '{' !in preamble && json != [] && json[0] == '{'
    ensures CleanResponse(result) == json
  {
    var s := Strip(result);
    assert s[|preamble|] == '{';
    assert s[..|preamble|] == preamble;
    assert s[|preamble|..] == json;
  }

  /**
   * `plan_command`: exactly one request. A parsed reply is returned as it is,
   * with no check of `agent` or `info`; every failure on the way gives the
   * unknown intent.
   */
  function PlanCommand(command: string, http: Http, parse: JsonParser): (plan: Json)
    ensures ResponseField(http(Request(command))).None? ==> plan == UnknownIntent
    ensures var field := ResponseField(http(Request(command)));
      field.Some? ==> plan == parse(CleanResponse(field.value)).GetOr(UnknownIntent)
  {
    match ResponseField(http(Request(command)))
    case None => UnknownIntent
    case Some(result) =>
      match parse(CleanResponse(result))
      case Some(parsed) => parsed
      case None => UnknownIntent
  }

  /** Only the reply to the one request matters: there is no retry or second call. */
  lemma SingleAttempt(command: string, http1: Http, http2: Http, parse: JsonParser)
    requires http1(Request(command)) == http2(Request(command))
    ensures PlanCommand(command, http1, parse) == PlanCommand(command, http2, parse)
  {
  }

  /** Whatever JSON the model produces is passed through, even one that names no agent. */
  lemma NoValidation(command: string, http: Http, parse: JsonParser, value: Json)
    requires ResponseField(http(Request(command))).Some?
    requires parse(CleanResponse(ResponseField(http(Request(command))).value)) == Some(value)
    ensures PlanCommand(command, http, parse) == value
  {
  }
}

=== FILE: scaffold.dfy ===
/**
 * Project scaffolding: a project name becomes a directory slug under
 * `generated_projects/`, and the one known template writes three files there.
 */
module Scaffold {
  import opened Wrappers
  import opened Strings

  const GeneratedRoot := "generated_projects"
  const DefaultTemplate := "opencv_face_tracker"
  const DefaultDescription := "OpenCV face detection and tracking from webcam."
  const Requirements := "opencv-python\n"

  /** The `main.py` the face-tracker template writes, verbatim. */
  const FaceTrackerMain: string := @"import cv2

def main():
    # Load Haar cascade for face detection
    face_cascade = cv2.CascadeClassifier(cv2.data.haarcascades + ""haarcascade_frontalface_default.xml"")
    cap = cv2.VideoCapture(0)

    if not cap.isOpened():
        print(""❌ Could not open webcam."")
        return

    print(""✅ Webcam opened. Press 'q' to quit."")
    while True:
        ret, frame = cap.read()
        if not ret:
            break

        gray = cv2.cvtColor(frame, cv2.COLOR_BGR2GRAY)
        faces = face_cascade.detectMultiScale(gray, scaleFactor=1.1, minNeighbors=5, minSize=(40, 40))

        for (x, y, w, h) in faces:
            cv2.rectangle(frame, (x, y), (x + w, y + h), (0, 255, 0), 2)
            cv2.putText(frame, ""Face"", (x, y - 10), cv2.FONT_HERSHEY_SIMPLEX, 0.6, (0, 255, 0), 2)

        cv2.imshow(""Face Tracker"", frame)
        if cv2.waitKey(1) & 0xFF == ord(""q""):
            break

    cap.release()
    cv2.destroyAllWindows()


if __name__ == ""__main__"":
    main()
"

  /** Characters a slug may contain: lower-case letters, digits, `-` and `_`. */
  predicate SlugChar(c: char) {
    IsLowerLetter(c) || IsDigit(c) || c == '-' || c == '_'
  }

  /** One character of `name.lower()` kept, or replaced by `-`. */
  function SlugOf(c: char): (d: char)
    ensures SlugChar(d)
    ensures SlugChar(c) ==> d == c
  {
    var l := LowerChar(c);
    if IsAlnum(l) || l == '-' || l == '_' then l else '-'
  }

  /** `slugify`: lower-case, unsafe characters to `-`, `-` stripped from the ends, `project` if nothing is left. */
  function Slugify(name: string): (slug: string)
    ensures slug != []
    ensures forall i :: 0 <= i < |slug| ==> SlugChar(slug[i])
    ensures slug[0] != '-' && slug[|slug| - 1] != '-'
    ensures (forall i :: 0 <= i < |name| ==> SlugOf(name[i]) == '-') ==> slug == "project"
  {
    var lowered := Lower(name);
    var mapped := seq(|lowered|, i requires 0 <= i < |lowered| => SlugOf(lowered[i]));
    StripByKeeps(mapped, {'-'}, SlugChar);
    var safe := StripBy(mapped, {'-'});
    if safe == [] then "project" else safe
  }

  /** A slug is its own slug. */
  lemma SlugifyIdempotent(name: string)
    ensures Slugify(Slugify(name)) == Slugify(name)
  {
    SlugifyKeepsSafeName(Slugify(name));
  }

  /**
   * When neither end of the name maps to `-`, nothing is stripped: the slug is
   * the name mapped character by character.
   */
  lemma SlugifyMapsEach(name: string)
    requires name != []
    requires SlugOf(name[0]) != '-' && SlugOf(name[|name| - 1]) != '-'
    ensures |Slugify(name)| == |name|
    ensures forall i :: 0 <= i < |name| ==> Slugify(name)[i] == SlugOf(name[i])
  {
    var lowered := Lower(name);
    var mapped := seq(|lowered|, i requires 0 <= i < |lowered| => SlugOf(lowered[i]));
    forall i | 0 <= i < |name|
      ensures mapped[i] == SlugOf(name[i])
    {
      assert lowered[i] == LowerChar(name[i]);
      assert LowerChar(LowerChar(name[i])) == LowerChar(name[i]);
    }
    assert mapped[0] != '-' && mapped[|mapped| - 1] != '-';
    StripByFixed(mapped, {'-'});
    assert Slugify(name) == mapped;
  }

  /**
   * Any run of characters that map to `-` at either end of a name is dropped
   * whole, and the word between them is mapped character by character.
   */
  lemma SlugifyStripsEnds(p: string, w: string, q: string)
    requires forall k :: 0 <= k < |p| ==> SlugOf(p[k]) == '-'
    requires forall k :: 0 <= k < |q| ==> SlugOf(q[k]) == '-'
    requires w != [] && SlugOf(w[0]) != '-' && SlugOf(w[|w| - 1]) != '-'
    ensures Slugify(p + w + q) == seq(|w|, i requires 0 <= i < |w| => SlugOf(w[i]))
  {
    var name := p + w + q;
    var lowered := Lower(name);
    var mapped := seq(|lowered|, i requires 0 <= i < |lowered| => SlugOf(lowered[i]));
    var mp := seq(|p|, i requires 0 <= i < |p| => SlugOf(p[i]));
    var mw := seq(|w|, i requires 0 <= i < |w| => SlugOf(w[i]));
    var mq := seq(|q|, i requires 0 <= i < |q| => SlugOf(q[i]));
    forall i | 0 <= i < |name|
      ensures mapped[i] == SlugOf(name[i])
    {
      assert lowered[i] == LowerChar(name[i]);
      assert LowerChar(LowerChar(name[i])) == LowerChar(name[i]);
    }
    forall i | 0 <= i < |name|
      ensures mapped[i] == (mp + mw + mq)[i]
    {
      if i < |p| {
        assert name[i] == p[i];
      } else if i < |p| + |w| {
        assert name[i] == w[i - |p|];
      } else {
        assert name[i] == q[i - |p| - |w|];
      }
    }
    assert mapped == mp + mw + mq;
    StripByAround(mp, mw, mq, {'-'});
  }

  /** Unsafe characters inside a name become `-`; those at its ends are dropped. */
  lemma SlugifyExample()
    ensures Slugify("!My App") == "my-app"
  {
    var lowered := Lower("!My App");
    assert lowered == "!my app";
    var mapped := seq(|lowered|, i requires 0 <= i < |lowered| => SlugOf(lowered[i]));
    assert mapped == "-" + "my-app";
    StripByPrefix("-", "my-app", {'-'});
  }

  /** A name already in slug form is its own slug. */
  lemma SlugifyKeepsSafeName(name: string)
    requires name != [] && forall i :: 0 <= i < |name| ==> SlugChar(name[i])
    requires name[0] != '-' && name[|name| - 1] != '-'
    ensures Slugify(name) == name
  {
    LowerNoUpper(name);
    var mapped := seq(|name|, i requires 0 <= i < |name| => SlugOf(Lower(name)[i]));
    assert mapped == name;
    StripByFixed(name, {'-'});
  }

  function ProjectDir(name: string): string {
    GeneratedRoot + "/" + Slugify(name)
  }

  /** The README the template writes: title, description (default when empty), setup steps. */
  function Readme(name: string, description: Option<string>): string {
    var text := if description.Some? && description.value != "" then description.value else DefaultDescription;
    "# " + name + "\n\n" + text + "\n\n## Setup\n```\npip install -r requirements.txt\npython main.py\n```\n"
  }

  datatype Created = Created(files: Files, message: string)

  /** Writes the three template files into `dir`; every other path keeps its content. */
  function WriteProject(fs: Files, dir: string, readme: string, requirements: string, main: string): (r: Files)
    ensures r.Keys == fs.Keys + {dir + "/README.md", dir + "/requirements.txt", dir + "/main.py"}
    ensures r[dir + "/README.md"] == readme
    ensures r[dir + "/requirements.txt"] == requirements
    ensures r[dir + "/main.py"] == main
    ensures forall p :: p in fs && p != dir + "/README.md" && p != dir + "/requirements.txt" && p != dir + "/main.py" ==>
      r[p] == fs[p]
  {
    fs[dir + "/README.md" := readme][dir + "/requirements.txt" := requirements][dir + "/main.py" := main]
  }

  /**
   * `create_opencv_face_tracker`: writes exactly `README.md`, `requirements.txt`
   * and `main.py` inside the project directory and nothing else.
   */
  function CreateFaceTracker(fs: Files, name: string, description: Option<string>): (r: Created)
    ensures r.files == WriteProject(fs, ProjectDir(name), Readme(name, description), Requirements, FaceTrackerMain)
    ensures r.message == "\U{1F4E6} Project created at " + ProjectDir(name)
  {
    var dir := ProjectDir(name);
    Created(WriteProject(fs, dir, Readme(name, description), Requirements, FaceTrackerMain), "\U{1F4E6} Project created at " + dir)
  }

  /** A slug is one path component: no `/`, and no `.` so never `.` or `..`. */
  lemma SlugIsComponent(name: string)
    ensures '/' !in Slugify(name) && '.' !in Slugify(name)
  {
    var slug := Slugify(name);
    assert forall i :: 0 <= i < |slug| ==> slug[i] != '/' && slug[i] != '.';
  }

  /** The files `WriteProject` adds all lie directly under `dir/`. */
  lemma WrittenUnder(fs: Files, dir: string, readme: string, requirements: string, main: string)
    ensures forall p :: p in WriteProject(fs, dir, readme, requirements, main) && p !in fs ==> StartsWith(p, dir + "/")
  {
    var prefix := dir + "/";
    assert (dir + "/README.md")[..|prefix|] == prefix;
    assert (dir + "/requirements.txt")[..|prefix|] == prefix;
    assert (dir + "/main.py")[..|prefix|] == prefix;
  }

  /**
   * The face-tracker template writes exactly `README.md`, `requirements.txt`
   * and `main.py`, all directly in `generated_projects/<slug>/` where the slug
   * is a single path component; every other file keeps its content.
   */
  lemma FaceTrackerFiles(fs: Files, name: string, description: Option<string>)
    ensures var slug := Slugify(name);
      var dir := GeneratedRoot + "/" + slug;
      var r := CreateFaceTracker(fs, name, description);
      && '/' !in slug && '.' !in slug
      && r.files.Keys == fs.Keys + {dir + "/README.md", dir + "/requirements.txt", dir + "/main.py"}
      && r.files[dir + "/README.md"] == Readme(name, description)
      && r.files[dir + "/requirements.txt"] == Requirements
      && r.files[dir + "/main.py"] == FaceTrackerMain
      && (forall p :: p in r.files && p !in fs ==> StartsWith(p, dir + "/"))
  {
    SlugIsComponent(name);
    WrittenUnder(fs, ProjectDir(name), Readme(name, description), Requirements, FaceTrackerMain);
  }

  /**
   * `scaffold_project`: no template (or an empty one) means the face tracker;
   * any other name than the face tracker's is refused and nothing is written.
   */
  function ScaffoldProject(fs: Files, name: string, description: Option<string>, template: Option<string>): (r: Created)
    ensures (template == None || template == Some("") || template == Some(DefaultTemplate)) ==>
      r == CreateFaceTracker(fs, name, description)
    ensures !(template == None || template == Some("") || template == Some(DefaultTemplate)) ==>
      r == Created(fs, "\U{274C} Unknown template.")
  {
    var chosen := if template.Some? && template.value != "" then template.value else DefaultTemplate;
    if chosen == DefaultTemplate then CreateFaceTracker(fs, name, description)
    else Created(fs, "\U{274C} Unknown template.")
  }
}

=== FILE: strings.dfy ===
/**
 * The handful of Python `str` operations the assistant relies on, on `seq<char>`.
 * Whitespace and line boundaries follow Python exactly; letter classes and case
 * mapping are restricted to ASCII.
 */
module Strings {

  /** Every character Python's `str.isspace()` accepts; `str.strip()` removes these. */
  const WhiteSpace: set<char> :=
    {' ', '\t', '\n', '\r', '\U{0B}', '\U{0C}', '\U{1C}', '\U{1D}', '\U{1E}', '\U{1F}',
     '\U{85}', '\U{A0}', '\U{1680}', '\U{2000}', '\U{2001}', '\U{2002}', '\U{2003}',
     '\U{2004}', '\U{2005}', '\U{2006}', '\U{2007}', '\U{2008}', '\U{2009}', '\U{200A}',
     '\U{2028}', '\U{2029}', '\U{202F}', '\U{205F}', '\U{3000}'}

  /** The line boundaries of Python's `str.splitlines()` (`\r\n` counts as one). */
  const LineBreaks: set<char> :=
    {'\n', '\r', '\U{0B}', '\U{0C}', '\U{1C}', '\U{1D}', '\U{1E}', '\U{85}', '\U{2028}', '\U{2029}'}

  predicate IsUpper(c: char) { 'A' <= c <= 'Z' }
  predicate IsLowerLetter(c: char) { 'a' <= c <= 'z' }
  predicate IsDigit(c: char) { '0' <= c <= '9' }

  /** `str.isalnum()` on one character, ASCII only. */
  predicate IsAlnum(c: char) { IsUpper(c) || IsLowerLetter(c) || IsDigit(c) }

  function LowerChar(c: char): (d: char)
    ensures !IsUpper(d)
    ensures IsAlnum(d) <==> IsAlnum(c)
    ensures !IsUpper(c) ==> d == c
  {
    if IsUpper(c) then (c as int + 32) as char else c
  }

  function UpperChar(c: char): (d: char)
    ensures !IsLowerLetter(d)
    ensures LowerChar(d) == LowerChar(c)
  {
    if IsLowerLetter(c) then (c as int - 32) as char else c
  }

  /** `str.lower()`: maps each character on its own, so the length is kept. */
  function Lower(s: string): (r: string)
    ensures |r| == |s|
    ensures forall i :: 0 <= i < |s| ==> r[i] == LowerChar(s[i])
  {
    seq(|s|, i requires 0 <= i < |s| => LowerChar(s[i]))
  }

  /** Text without upper-case letters is its own lower case. */
  lemma LowerNoUpper(s: string)
    requires forall i :: 0 <= i < |s| ==> !IsUpper(s[i])
    ensures Lower(s) == s
  {
  }

  lemma LowerIdempotent(s: string)
    ensures Lower(Lower(s)) == Lower(s)
  {
  }

  /** `str.capitalize()`: first character upper case, the rest lower case. */
  function Capitalize(s: string): (r: string)
    ensures |r| == |s|
    ensures Lower(r) == Lower(s)
  {
    if s == [] then [] else [UpperChar(s[0])] + Lower(s[1..])
  }

  /** Drops leading characters that are in `cs`. */
  function TrimLeft(s: string, cs: set<char>): (r: string)
    ensures |r| <= |s| && r == s[|s| - |r|..]
    ensures forall k :: 0 <= k < |s| - |r| ==> s[k] in cs
    ensures r != [] ==> r[0] !in cs
  {
    if s != [] && s[0] in cs then
      var r := TrimLeft(s[1..], cs);
      assert s[1..][|s| - 1 - |r|..] == s[|s| - |r|..];
      assert forall k :: 1 <= k < |s| - |r| ==> s[k] == s[1..][k - 1];
      r
    else s
  }

  /** Drops trailing characters that are in `cs`. */
  function TrimRight(s: string, cs: set<char>): (r: string)
    ensures |r| <= |s| && r == s[..|r|]
    ensures forall k :: |r| <= k < |s| ==> s[k] in cs
    ensures r != [] ==> r[|r| - 1] !in cs
  {
    if s != [] && s[|s| - 1] in cs then TrimRight(s[..|s| - 1], cs) else s
  }

  /** Python's `s.strip(chars)`: removes characters of `cs` from both ends. */
  function StripBy(s: string, cs: set<char>): (r: string)
    ensures r != [] ==> r[0] !in cs && r[|r| - 1] !in cs
    ensures r == [] <==> forall k :: 0 <= k < |s| ==> s[k] in cs
    ensures |r| <= |s|
  {
    var t := TrimLeft(s, cs);
    assert t == [] ==> forall k :: 0 <= k < |s| ==> s[k] in cs;
    TrimRight(t, cs)
  }

  /** A property of every character survives stripping. */
  lemma StripByKeeps(s: string, cs: set<char>, P: char -> bool)
    requires forall i :: 0 <= i < |s| ==> P(s[i])
    ensures forall i :: 0 <= i < |StripBy(s, cs)| ==> P(StripBy(s, cs)[i])
  {
    var t := TrimLeft(s, cs);
    var r := TrimRight(t, cs);
    assert r == StripBy(s, cs);
    var off := |s| - |t|;
    assert t == s[off..] && r == t[..|r|];
    forall i | 0 <= i < |r|
      ensures P(r[i])
    {
      assert r[i] == t[i];
      assert t[i] == s[off + i];
    }
  }

  /** A string whose ends are already outside `cs` is its own strip. */
  lemma StripByFixed(s: string, cs: set<char>)
    requires s != [] ==> s[0] !in cs && s[|s| - 1] !in cs
    ensures StripBy(s, cs) == s
  {
  }

  /** A prefix made only of `cs` is cut off whole by `TrimLeft`. */
  lemma {:induction false} TrimLeftPrefix(p: string, w: string, cs: set<char>)
    requires forall k :: 0 <= k < |p| ==> p[k] in cs
    ensures TrimLeft(p + w, cs) == TrimLeft(w, cs)
    decreases |p|
  {
    if p == [] {
      assert p + w == w;
    } else {
      assert (p + w)[0] == p[0] && (p + w)[1..] == p[1..] + w;
      TrimLeftPrefix(p[1..], w, cs);
    }
  }

  /** Stripping a prefix made only of `cs` off a word whose ends are outside `cs` leaves the word. */
  lemma StripByPrefix(p: string, w: string, cs: set<char>)
    requires forall k :: 0 <= k < |p| ==> p[k] in cs
    requires w != [] && w[0] !in cs && w[|w| - 1] !in cs
    ensures StripBy(p + w, cs) == w
  {
    TrimLeftPrefix(p, w, cs);
    assert TrimLeft(w, cs) == w;
    assert TrimRight(w, cs) == w;
  }

  /** A suffix made only of `cs` is cut off whole by `TrimRight`. */
  lemma {:induction false} TrimRightSuffix(w: string, q: string, cs: set<char>)
    requires forall k :: 0 <= k < |q| ==> q[k] in cs
    ensures TrimRight(w + q, cs) == TrimRight(w, cs)
    decreases |q|
  {
    if q == [] {
      assert w + q == w;
    } else {
      var q' := q[..|q| - 1];
      assert (w + q)[|w + q| - 1] == q[|q| - 1] && (w + q)[..|w + q| - 1] == w + q';
      TrimRightSuffix(w, q', cs);
    }
  }

  /**
   * Stripping is maximal: with a run of `cs` on each side of a word whose ends
   * are outside `cs`, exactly the word is left.
   */
  lemma StripByAround(p: string, w: string, q: string, cs: set<char>)
    requires forall k :: 0 <= k < |p| ==> p[k] in cs
    requires forall k :: 0 <= k < |q| ==> q[k] in cs
    requires w != [] && w[0] !in cs && w[|w| - 1] !in cs
    ensures StripBy(p + w + q, cs) == w
  {
    assert p + w + q == p + (w + q);
    TrimLeftPrefix(p, w + q, cs);
    assert TrimLeft(w + q, cs) == w + q;
    TrimRightSuffix(w, q, cs);
    assert TrimRight(w, cs) == w;
  }

  lemma StripByIdempotent(s: string, cs: set<char>)
    ensures StripBy(StripBy(s, cs), cs) == StripBy(s, cs)
  {
    StripByFixed(StripBy(s, cs), cs);
  }

  /** `t` is `s[i..j]`, and everything outside `[i, j)` is in `cs`. */
  predicate TrimAt(t: string, s: string, cs: set<char>, i: int, j: int) {
    && 0 <= i <= j <= |s| && t == s[i..j]
    && (forall k :: 0 <= k < i ==> s[k] in cs)
    && (forall k :: j <= k < |s| ==> s[k] in cs)
  }

  /** `t` is a contiguous part of `s`, and everything cut off either end is in `cs`. */
  predicate TrimOf(t: string, s: string, cs: set<char>) {
    exists i, j :: 0 <= i <= j <= |s| && TrimAt(t, s, cs, i, j)
  }

  /** Stripping only cuts characters of `cs` off the ends. */
  lemma StripByTrims(s: string, cs: set<char>)
    ensures TrimOf(StripBy(s, cs), s, cs)
  {
    var t := TrimLeft(s, cs);
    var r := TrimRight(t, cs);
    assert r == StripBy(s, cs);
    var i := |s| - |t|;
    var j := i + |r|;
    assert t == s[i..] && r == t[..|r|];
    assert r == s[i..j];
    forall k | j <= k < |s|
      ensures s[k] in cs
    {
      assert s[k] == t[k - i];
    }
    assert TrimAt(r, s, cs, i, j);
  }

  /** A trim of a trim is a trim, by the union of the two sets. */
  lemma TrimOfTrans(t: string, m: string, s: string, inner: set<char>, outer: set<char>)
    requires TrimOf(t, m, inner) && TrimOf(m, s, outer)
    ensures TrimOf(t, s, outer + inner)
  {
    var i1, j1 :| 0 <= i1 <= j1 <= |s| && TrimAt(m, s, outer, i1, j1);
    var i2, j2 :| 0 <= i2 <= j2 <= |m| && TrimAt(t, m, inner, i2, j2);
    assert m == s[i1..j1] && t == m[i2..j2];
    assert t == s[i1 + i2..i1 + j2] by {
      assert |t| == j2 - i2;
      forall k | 0 <= k < |t|
        ensures t[k] == s[i1 + i2 + k]
      {
        assert t[k] == m[i2 + k];
      }
    }
    forall k | 0 <= k < i1 + i2
      ensures s[k] in outer + inner
    {
      if k >= i1 {
        assert s[k] == m[k - i1];
      }
    }
    forall k | i1 + j2 <= k < |s|
      ensures s[k] in outer + inner
    {
      if k < j1 {
        assert s[k] == m[k - i1];
      }
    }
    assert TrimAt(t, s, outer + inner, i1 + i2, i1 + j2);
  }

  lemma AlnumNotSpace(c: char)
    requires IsAlnum(c)
    ensures c !in WhiteSpace
  {
  }

  /** Python's `s.strip()`. */
  function Strip(s: string): (r: string)
    ensures r == [] <==> forall k :: 0 <= k < |s| ==> s[k] in WhiteSpace
    ensures r != [] ==> r[0] !in WhiteSpace && r[|r| - 1] !in WhiteSpace
  {
    StripBy(s, WhiteSpace)
  }

  predicate IsBlank(s: string) { forall k :: 0 <= k < |s| ==> s[k] in WhiteSpace }

  predicate StartsWith(s: string, prefix: string) {
    |prefix| <= |s| && s[..|prefix|] == prefix
  }

  /** Python's `needle in hay` for strings. */
  predicate ContainsInfix(hay: string, needle: string)
    decreases |hay|
  {
    if |hay| < |needle| then false
    else hay[..|needle|] == needle || (hay != [] && ContainsInfix(hay[1..], needle))
  }

  lemma {:induction false} ContainsInfixAt(hay: string, needle: string, i: nat)
    requires i + |needle| <= |hay| && hay[i..i + |needle|] == needle
    ensures ContainsInfix(hay, needle)
    decreases i
  {
    if i > 0 {
      assert hay[1..][i - 1..i - 1 + |needle|] == needle;
      ContainsInfixAt(hay[1..], needle, i - 1);
    } else {
      assert hay[..|needle|] == needle;
    }
  }

  /** Index of the first occurrence of `c`, as Python's `s.index(c)`. */
  function IndexOf(s: string, c: char): (i: nat)
    requires c in s
    ensures i < |s| && s[i] == c && c !in s[..i]
  {
    if s[0] == c then 0 else 1 + IndexOf(s[1..], c)
  }

  /** `s.split(c)[0]`: everything before the first `c`, or all of `s`. */
  function BeforeFirst(s: string, c: char): (r: string)
    ensures |r| <= |s| && r == s[..|r|]
    ensures c !in r
    ensures |r| < |s| ==> s[|r|] == c
  {
    if c in s then s[..IndexOf(s, c)] else s
  }

  /** `BeforeFirst` stops at the first occurrence. */
  lemma BeforeFirstAt(s: string, c: char, i: nat)
    requires i < |s| && s[i] == c && c !in s[..i]
    ensures BeforeFirst(s, c) == s[..i]
  {
    var r := BeforeFirst(s, c);
  }

  /** `sep.join(parts)`. */
  function Join(sep: string, parts: seq<string>): string
  {
    if |parts| == 0 then ""
    else if |parts| == 1 then parts[0]
    else parts[0] + sep + Join(sep, parts[1..])
  }

  /** Joining peels off the first part. */
  lemma JoinCons(sep: string, first: string, rest: seq<string>)
    requires rest != []
    ensures Join(sep, [first] + rest) == first + sep + Join(sep, rest)
  {
    assert ([first] + rest)[1..] == rest;
  }

  lemma BlankConcat(a: string, b: string)
    ensures IsBlank(a + b) <==> IsBlank(a) && IsBlank(b)
  {
    if IsBlank(a) && IsBlank(b) {
      forall k | 0 <= k < |a + b|
        ensures (a + b)[k] in WhiteSpace
      {
        if k >= |a| {
          assert (a + b)[k] == b[k - |a|];
        }
      }
    }
    if IsBlank(a + b) {
      forall k | 0 <= k < |a|
        ensures a[k] in WhiteSpace
      {
        assert (a + b)[k] == a[k];
      }
      forall k | 0 <= k < |b|
        ensures b[k] in WhiteSpace
      {
        assert (a + b)[|a| + k] == b[k];
      }
    }
  }

  /** Lines joined by newlines are blank exactly when every line is. */
  lemma {:induction false} BlankJoinLines(parts: seq<string>)
    ensures IsBlank(Join("\n", parts)) <==> forall i :: 0 <= i < |parts| ==> IsBlank(parts[i])
  {
    if |parts| > 1 {
      BlankJoinLines(parts[1..]);
      BlankConcat(parts[0], "\n");
      BlankConcat(parts[0] + "\n", Join("\n", parts[1..]));
      assert forall i :: 1 <= i < |parts| ==> parts[i] == parts[1..][i - 1];
    }
  }

  predicate NoBreaks(s: string) { forall k :: 0 <= k < |s| ==> s[k] !in LineBreaks }

  lemma NoBreaksConcat(a: string, b: string)
    ensures NoBreaks(a + b) <==> NoBreaks(a) && NoBreaks(b)
  {
    assert forall k :: 0 <= k < |a| ==> a[k] == (a + b)[k];
    assert forall k :: 0 <= k < |b| ==> b[k] == (a + b)[|a| + k];
    if NoBreaks(a) && NoBreaks(b) {
      forall k | 0 <= k < |a + b|
        ensures (a + b)[k] !in LineBreaks
      {
        if k >= |a| {
          assert (a + b)[k] == b[k - |a|];
        }
      }
    }
  }

  /** Length of the first line: the index of the first line boundary, or `|s|`. */
  function LineEnd(s: string): (i: nat)
    ensures i <= |s|
    ensures NoBreaks(s[..i])
    ensures i < |s| ==> s[i] in LineBreaks
  {
    if s == [] || s[0] in LineBreaks then 0
    else
      var j := LineEnd(s[1..]);
      assert s[..1 + j] == [s[0]] + s[1..][..j];
      1 + j
  }

  /** Where the line after the first one starts: past `\r\n` or one boundary. */
  function NextLineStart(s: string): (n: nat)
    ensures LineEnd(s) <= n <= |s|
    ensures LineEnd(s) < |s| ==> LineEnd(s) < n
  {
    var i := LineEnd(s);
    if i + 1 < |s| && s[i] == '\r' && s[i + 1] == '\n' then i + 2
    else if i < |s| then i + 1
    else i
  }

  /**
   * Python's `str.splitlines()`: lines without their boundaries; a final
   * boundary does not open an empty last line.
   */
  function SplitLines(s: string): (lines: seq<string>)
    ensures forall j :: 0 <= j < |lines| ==> NoBreaks(lines[j])
    ensures lines == [] <==> s == []
    decreases |s|
  {
    if s == [] then []
    else [s[..LineEnd(s)]] + SplitLines(s[NextLineStart(s)..])
  }

  lemma LineEndAfterLine(x: string, rest: string)
    requires NoBreaks(x)
    ensures LineEnd(x + "\n" + rest) == |x|
    ensures NextLineStart(x + "\n" + rest) == |x| + 1
  {
    var s := x + "\n" + rest;
    assert s[..|x|] == x;
    assert s[|x|] == '\n';
  }

  lemma LineEndOfLine(x: string)
    requires NoBreaks(x)
    ensures LineEnd(x) == |x|
  {
  }

  /**
   * Joining break-free lines with `\n` and splitting again gives the lines back,
   * provided the last one is not empty (`"a\n"` splits to `["a"]`).
   */
  lemma {:induction false} SplitJoinLines(lines: seq<string>)
    requires forall j :: 0 <= j < |lines| ==> NoBreaks(lines[j])
    requires lines != [] ==> lines[|lines| - 1] != []
    ensures SplitLines(Join("\n", lines)) == lines
  {
    if |lines| == 0 {
    } else if |lines| == 1 {
      LineEndOfLine(lines[0]);
      assert lines[0][..|lines[0]|] == lines[0];
    } else {
      var s := Join("\n", lines);
      var rest := Join("\n", lines[1..]);
      assert s == lines[0] + "\n" + rest;
      LineEndAfterLine(lines[0], rest);
      assert s[..|lines[0]|] == lines[0];
      assert s[|lines[0]| + 1..] == rest;
      SplitJoinLines(lines[1..]);
    }
  }

  /** The same with a final `\n` after the last line, which may then be empty. */
  lemma {:induction false} SplitJoinLinesNewline(lines: seq<string>)
    requires forall j :: 0 <= j < |lines| ==> NoBreaks(lines[j])
    requires lines != []
    ensures SplitLines(Join("\n", lines) + "\n") == lines
  {
    var s := Join("\n", lines) + "\n";
    if |lines| == 1 {
      LineEndAfterLine(lines[0], "");
      assert s[..|lines[0]|] == lines[0];
      assert s[|lines[0]| + 1..] == [];
    } else {
      var rest := Join("\n", lines[1..]) + "\n";
      assert s == lines[0] + "\n" + rest;
      LineEndAfterLine(lines[0], rest);
      assert s[..|lines[0]|] == lines[0];
      assert s[|lines[0]| + 1..] == rest;
      SplitJoinLinesNewline(lines[1..]);
    }
  }

  function DigitChar(d: nat): (c: char)
    requires d < 10
    ensures IsDigit(c)
  {
    ('0' as int + d) as char
  }

  /** Python's `str(n)` for a non-negative integer. */
  function NatToString(n: nat): (r: string)
    ensures |r| >= 1
    ensures forall i :: 0 <= i < |r| ==> IsDigit(r[i])
    ensures |r| == 1 <==> n < 10
  {
    if n < 10 then [DigitChar(n)] else NatToString(n / 10) + [DigitChar(n % 10)]
  }

  /** Distinct numbers print differently. */
  lemma {:induction false} NatToStringInjective(a: nat, b: nat)
    requires NatToString(a) == NatToString(b)
    ensures a == b
  {
    if a >= 10 && b >= 10 {
      var sa, sb := NatToString(a), NatToString(b);
      assert sa[..|sa| - 1] == NatToString(a / 10);
      assert sb[..|sb| - 1] == NatToString(b / 10);
      assert DigitChar(a % 10) == sa[|sa| - 1] == DigitChar(b % 10);
      NatToStringInjective(a / 10, b / 10);
    }
  }

  /**
   * Python's `s[-n:]` for an integer `n`: `n >= 1` keeps the last `n` items,
   * `n == 0` keeps everything (`-0 == 0`), `n < 0` drops the first `-n`.
   */
  function SuffixSlice<T>(s: seq<T>, n: int): (r: seq<T>)
    ensures |r| <= |s| && r == s[|s| - |r|..]
    ensures n >= 1 ==> |r| == if n < |s| then n else |s|
    ensures n == 0 ==> r == s
    ensures n < 0 ==> |r| == if |s| + n > 0 then |s| + n else 0
  {
    if n > 0 then (if n < |s| then s[|s| - n..] else s)
    else if -n < |s| then s[-n..]
    else []
  }
}

=== FILE: system.dfy ===
/**
 * Desktop controls: locking the screen, volume and brightness, each a table
 * from operating system, available tools and action to the command run.
 * Running a command and finding a tool on `PATH` are oracles.
 */
module SystemControl {
  import opened Wrappers
  import opened Strings

  type Command = seq<string>

  /** How `subprocess.run(cmd, check=True)` ended. */
  datatype RunOutcome = Ok | NonZeroExit(stderr: string) | OtherError(text: string)

  type Runner = Command -> RunOutcome

  /** `shutil.which`: whether a tool is on `PATH`. */
  type Which = string -> bool

  /** `_run`: success with no text, or failure with the error output or exception text. */
  function Run(cmd: Command, run: Runner): (r: (bool, string))
    ensures r.0 <==> run(cmd).Ok?
    ensures run(cmd).Ok? ==> r.1 == ""
    ensures run(cmd).NonZeroExit? ==> r.1 == run(cmd).stderr
    ensures run(cmd).OtherError? ==> r.1 == run(cmd).text
  {
    match run(cmd)
    case Ok => (true, "")
    case NonZeroExit(e) => (false, e)
    case OtherError(e) => (false, e)
  }

  /** The commands run, in order, and the reply. */
  datatype Report = Report(ran: seq<Command>, message: string)

  /** The lock command for a lower-cased system name, if it has one. */
  function LockCommand(system: string): (cmd: Option<Command>)
    ensures cmd.Some? <==> system in {"linux", "darwin", "windows"}
  {
    if system == "linux" then Some(["loginctl", "lock-session"])
    else if system == "darwin" then
      Some(["/System/Library/CoreServices/Menu Extras/User.menu/Contents/Resources/CGSession", "-suspend"])
    else if system == "windows" then Some(["rundll32.exe", "user32.dll,LockWorkStation"])
    else None
  }

  /** `lock_screen`: one OS-specific command; reports locked exactly when it succeeded. */
  function LockScreen(platform: string, run: Runner): (r: Report)
    ensures LockCommand(Lower(platform)).None? ==> r == Report([], "\U{274C} Unsupported OS for lock.")
    ensures LockCommand(Lower(platform)).Some? ==> var cmd := LockCommand(Lower(platform)).value;
      && r.ran == [cmd]
      && (r.message == "\U{1F512} Screen locked." <==> run(cmd).Ok?)
      && (run(cmd).NonZeroExit? ==> r.message == "\U{274C} Failed to lock screen: " + run(cmd).stderr)
      && (run(cmd).OtherError? ==> r.message == "\U{274C} Failed to lock screen: " + run(cmd).text)
  {
    match LockCommand(Lower(platform))
    case None => Report([], "\U{274C} Unsupported OS for lock.")
    case Some(cmd) =>
      var (ok, err) := Run(cmd, run);
      Report([cmd], if ok then "\U{1F512} Screen locked." else "\U{274C} Failed to lock screen: " + err)
  }

  /** The mark that opens every refusal reply. */
  const Cross := "\U{274C} "

  const VolumeNotLinux := Cross + "Volume control implemented for Linux pulse audio only."
  const NoPactl := Cross + "pactl not found. Install PulseAudio utilities."
  const UnknownVolume := Cross + "Unknown volume action."

  /**
   * `volume`: Linux only, `pactl` required; up and down move the default sink
   * by 5%, mute toggles it, and each reports success. The result of `_run` is
   * discarded, so the reply depends on no runner.
   */
  function Volume(platform: string, action: string, which: Which): (r: Report)
    ensures Lower(platform) != "linux" ==> r == Report([], VolumeNotLinux)
    ensures Lower(platform) == "linux" && !which("pactl") ==> r == Report([], NoPactl)
    ensures Lower(platform) == "linux" && which("pactl") ==>
      && (action == "up" ==>
            r == Report([["pactl", "set-sink-volume", "@DEFAULT_SINK@", "+5%"]], "\U{1F50A} Volume up."))
      && (action == "down" ==>
            r == Report([["pactl", "set-sink-volume", "@DEFAULT_SINK@", "-5%"]], "\U{1F509} Volume down."))
      && (action == "mute" ==>
            r == Report([["pactl", "set-sink-mute", "@DEFAULT_SINK@", "toggle"]], "\U{1F92B} Toggled mute."))
      && (action !in {"up", "down", "mute"} ==> r == Report([], UnknownVolume))
  {
    if Lower(platform) != "linux" then Report([], VolumeNotLinux)
    else if !which("pactl") then Report([], NoPactl)
    else if action == "up" then Report([["pactl", "set-sink-volume", "@DEFAULT_SINK@", "+5%"]], "\U{1F50A} Volume up.")
    else if action == "down" then Report([["pactl", "set-sink-volume", "@DEFAULT_SINK@", "-5%"]], "\U{1F509} Volume down.")
    else if action == "mute" then Report([["pactl", "set-sink-mute", "@DEFAULT_SINK@", "toggle"]], "\U{1F92B} Toggled mute.")
    else Report([], UnknownVolume)
  }

  const BrightnessNotLinux := Cross + "Brightness control implemented for Linux only."
  const NoBrightnessTool := Cross + "Brightness tool not found (install brightnessctl or xbacklight)."

  /** The step command of a brightness tool for `up` or `down`. */
  function BrightnessCommand(tool: string, up: bool): Command {
    if tool == "brightnessctl" then ["brightnessctl", "set", if up then "+10%" else "10%-"]
    else ["xbacklight", if up then "-inc" else "-dec", "10"]
  }

  /**
   * `brightness`: Linux only; `brightnessctl` when present, else `xbacklight`,
   * stepping by 10%; no tool, or an action other than up or down, falls
   * through to the not-found reply. As in `volume`, the result of `_run` is
   * discarded.
   */
  function Brightness(platform: string, action: string, which: Which): (r: Report)
    ensures Lower(platform) != "linux" ==> r == Report([], BrightnessNotLinux)
    ensures Lower(platform) == "linux" && ((action != "up" && action != "down")
                                           || (!which("brightnessctl") && !which("xbacklight"))) ==>
      r == Report([], NoBrightnessTool)
    ensures Lower(platform) == "linux" && (which("brightnessctl") || which("xbacklight")) ==>
      var tool := if which("brightnessctl") then "brightnessctl" else "xbacklight";
      && (action == "up" ==> r == Report([BrightnessCommand(tool, true)], "\U{1F4A1} Brightness up."))
      && (action == "down" ==> r == Report([BrightnessCommand(tool, false)], "\U{1F4A1} Brightness down."))
  {
    if Lower(platform) != "linux" then Report([], BrightnessNotLinux)
    else if which("brightnessctl") then
      if action == "up" then Report([["brightnessctl", "set", "+10%"]], "\U{1F4A1} Brightness up.")
      else if action == "down" then Report([["brightnessctl", "set", "10%-"]], "\U{1F4A1} Brightness down.")
      else Report([], NoBrightnessTool)
    else if which("xbacklight") then
      if action == "up" then Report([["xbacklight", "-inc", "10"]], "\U{1F4A1} Brightness up.")
      else if action == "down" then Report([["xbacklight", "-dec", "10"]], "\U{1F4A1} Brightness down.")
      else Report([], NoBrightnessTool)
    else Report([], NoBrightnessTool)
  }

  /** A reply of the desktop controls marks a failure, with a leading cross. */
  predicate IsRefusal(message: string) {
    message != [] && message[0] == '\U{274C}'
  }

  /**
   * For both controls, on every input, a command runs exactly when the reply
   * is not a refusal, and at most one runs.
   */
  lemma RefusedExactlyWhenNothingRuns(platform: string, action: string, which: Which)
    ensures var r := Volume(platform, action, which);
      |r.ran| <= 1 && (r.ran == [] <==> IsRefusal(r.message))
    ensures var r := Brightness(platform, action, which);
      |r.ran| <= 1 && (r.ran == [] <==> IsRefusal(r.message))
  {
    assert IsRefusal(VolumeNotLinux) && IsRefusal(NoPactl) && IsRefusal(UnknownVolume);
    assert IsRefusal(BrightnessNotLinux) && IsRefusal(NoBrightnessTool);
    assert !IsRefusal("\U{1F50A} Volume up.") && !IsRefusal("\U{1F509} Volume down.");
    assert !IsRefusal("\U{1F92B} Toggled mute.");
    assert !IsRefusal("\U{1F4A1} Brightness up.") && !IsRefusal("\U{1F4A1} Brightness down.");
  }
}

=== FILE: tasks.dfy ===
/**
 * The deferred task queue: a flat, ordered store of task records that is only
 * ever appended to or updated in place, and a worker that drains it once.
 * The store is the whole persisted document; every operation maps one store
 * value to the next (the process-wide lock becomes sequential composition).
 */
module Tasks {
  import opened Wrappers
  import opened Strings

  datatype Status = Pending | Running | Done | Failed

  /** A task's JSON payload, e.g. `{"topic": ...}`. */
  type Payload = map<string, string>

  /** One record; `result` is absent until a non-empty result is written. */
  datatype Task = Task(
    id: string,
    kind: string,
    payload: Payload,
    status: Status,
    created: string,
    result: Option<string>)

  type Store = seq<Task>

  /** The identifier `task-<n>`. */
  function TaskId(n: nat): string {
    "task-" + NatToString(n)
  }

  lemma TaskIdInjective(a: nat, b: nat)
    requires TaskId(a) == TaskId(b)
    ensures a == b
  {
    assert NatToString(a) == TaskId(a)[5..];
    assert NatToString(b) == TaskId(b)[5..];
    NatToStringInjective(a, b);
  }

  /** The i-th record (0-based) carries id `task-<i+1>`, as `add_task` numbers them. */
  predicate WellNumbered(store: Store) {
    forall k :: 0 <= k < |store| ==> store[k].id == TaskId(k + 1)
  }

  predicate UniqueIds(store: Store) {
    forall i, j :: 0 <= i < j < |store| ==> store[i].id != store[j].id
  }

  lemma WellNumberedUnique(store: Store)
    requires WellNumbered(store)
    ensures UniqueIds(store)
  {
    forall i, j | 0 <= i < j < |store|
      ensures store[i].id != store[j].id
    {
      if store[i].id == store[j].id {
        TaskIdInjective(i + 1, j + 1);
      }
    }
  }

  predicate NoPending(store: Store) {
    forall k :: 0 <= k < |store| ==> store[k].status != Pending
  }

  /** `add_task`: appends one pending record numbered after the current length. */
  function AddTask(store: Store, kind: string, payload: Payload, created: string): (r: (Store, Task))
    ensures |r.0| == |store| + 1 && r.0[..|store|] == store && r.0[|store|] == r.1
    ensures r.1.id == TaskId(|store| + 1) && r.1.status == Pending && r.1.result == None
    ensures r.1.kind == kind && r.1.payload == payload && r.1.created == created
    ensures WellNumbered(store) ==> WellNumbered(r.0)
  {
    var task := Task(TaskId(|store| + 1), kind, payload, Pending, created, None);
    (store + [task], task)
  }

  /** `list_tasks`: the stored sequence, unfiltered and in insertion order. */
  function ListTasks(store: Store): (tasks: seq<Task>)
    ensures tasks == store
  {
    store
  }

  /** Adding then listing shows every earlier task unchanged and the new one last, pending. */
  lemma AddThenList(store: Store, kind: string, payload: Payload, created: string)
    ensures var listed := ListTasks(AddTask(store, kind, payload, created).0);
      && |listed| == |store| + 1
      && listed[..|store|] == ListTasks(store)
      && listed[|store|].kind == kind && listed[|store|].payload == payload
      && listed[|store|].status == Pending
  {
  }

  /** The record after `update_task_status` wrote `status` and `result` into it. */
  function WithStatus(t: Task, status: Status, result: string): (u: Task)
    ensures u.id == t.id && u.kind == t.kind && u.payload == t.payload && u.created == t.created
    ensures u.status == status
    ensures result != "" ==> u.result == Some(result)
    ensures result == "" ==> u.result == t.result
  {
    t.(status := status, result := if result != "" then Some(result) else t.result)
  }

  /** Index of the first record with this id, or `|store|` when there is none. */
  function FirstWithId(store: Store, id: string): (i: nat)
    ensures i <= |store|
    ensures forall k :: 0 <= k < i ==> store[k].id != id
    ensures i < |store| ==> store[i].id == id
  {
    if store == [] then 0
    else if store[0].id == id then 0
    else 1 + FirstWithId(store[1..], id)
  }

  /**
   * `update_task_status`: rewrites the first record whose id matches and no
   * other; a non-empty `result` replaces the stored one, an empty one keeps it.
   */
  function UpdateTaskStatus(store: Store, id: string, status: Status, result: string): (r: Store)
    ensures |r| == |store|
    ensures forall k :: 0 <= k < |store| && k != FirstWithId(store, id) ==> r[k] == store[k]
    ensures FirstWithId(store, id) < |store| ==>
      r[FirstWithId(store, id)] == WithStatus(store[FirstWithId(store, id)], status, result)
    ensures forall k :: 0 <= k < |store| ==> r[k].id == store[k].id
  {
    if store == [] then []
    else if store[0].id == id then [WithStatus(store[0], status, result)] + store[1..]
    else [store[0]] + UpdateTaskStatus(store[1..], id, status, result)
  }

  /** An unknown id leaves the store as it was. */
  lemma UpdateUnknownId(store: Store, id: string, status: Status, result: string)
    requires forall k :: 0 <= k < |store| ==> store[k].id != id
    ensures UpdateTaskStatus(store, id, status, result) == store
  {
    var r := UpdateTaskStatus(store, id, status, result);
    assert FirstWithId(store, id) == |store|;
    assert forall k :: 0 <= k < |store| ==> r[k] == store[k];
  }

  /** In a well-numbered store the id `task-<j+1>` addresses exactly record `j`. */
  lemma UpdateWellNumbered(store: Store, j: nat, status: Status, result: string)
    requires WellNumbered(store) && j < |store|
    ensures UpdateTaskStatus(store, TaskId(j + 1), status, result)
            == store[j := WithStatus(store[j], status, result)]
    ensures WellNumbered(UpdateTaskStatus(store, TaskId(j + 1), status, result))
  {
    var i := FirstWithId(store, TaskId(j + 1));
    assert store[j].id == TaskId(j + 1);
    if i < j {
      assert store[i].id == TaskId(i + 1);
      TaskIdInjective(i + 1, j + 1);
    }
    assert i == j;
  }

  /** The store operations a program can perform, for reasoning about reachable stores. */
  datatype Op =
    | Add(kind: string, payload: Payload, created: string)
    | Update(id: string, status: Status, result: string)

  function Apply(store: Store, op: Op): Store {
    match op
    case Add(kind, payload, created) => AddTask(store, kind, payload, created).0
    case Update(id, status, result) => UpdateTaskStatus(store, id, status, result)
  }

  /** The store after running `ops` in order from the missing (empty) file. */
  function Replay(ops: seq<Op>): Store
    decreases |ops|
  {
    if ops == [] then [] else Apply(Replay(ops[..|ops| - 1]), ops[|ops| - 1])
  }

  /**
   * Nothing removes records and ids come from the length, so a store built by
   * `add_task` and `update_task_status` alone is numbered 1..n: ids are distinct.
   */
  lemma {:induction false} ReplayWellNumbered(ops: seq<Op>)
    ensures WellNumbered(Replay(ops))
    ensures UniqueIds(Replay(ops))
    decreases |ops|
  {
    if ops != [] {
      var prev := Replay(ops[..|ops| - 1]);
      ReplayWellNumbered(ops[..|ops| - 1]);
      match ops[|ops| - 1]
      case Add(kind, payload, created) =>
      case Update(id, status, result) =>
        assert forall k :: 0 <= k < |prev| ==> Replay(ops)[k].id == prev[k].id;
    }
    WellNumberedUnique(Replay(ops));
  }

  /** What a handler run does: its outcome, and the tasks it enqueued meanwhile. */
  datatype Outcome = Returned(value: string) | Raised(message: string)
  datatype NewTask = NewTask(kind: string, payload: Payload, created: string)
  datatype Handled = Handled(outcome: Outcome, enqueued: seq<NewTask>)

  /** `add_task` for each new task in turn. */
  function EnqueueAll(store: Store, news: seq<NewTask>): (r: Store)
    ensures |r| == |store| + |news| && r[..|store|] == store
    ensures forall k :: |store| <= k < |r| ==> r[k].status == Pending
    ensures WellNumbered(store) ==> WellNumbered(r)
    decreases |news|
  {
    if news == [] then store
    else
      var next := AddTask(store, news[0].kind, news[0].payload, news[0].created).0;
      var r := EnqueueAll(next, news[1..]);
      assert r[..|store|] == r[..|next|][..|store|];
      r
  }

  /** The `k`-th new task is numbered after the store and carries its kind, payload and time. */
  lemma {:induction false} EnqueuedContents(store: Store, news: seq<NewTask>, k: nat)
    requires k < |news|
    ensures var r := EnqueueAll(store, news);
      && r[|store| + k].id == TaskId(|store| + k + 1)
      && r[|store| + k].kind == news[k].kind
      && r[|store| + k].payload == news[k].payload
      && r[|store| + k].created == news[k].created
    decreases |news|
  {
    var added := AddTask(store, news[0].kind, news[0].payload, news[0].created);
    var next := added.0;
    var r := EnqueueAll(next, news[1..]);
    if k == 0 {
      assert r[|store|] == r[..|next|][|store|] == added.1;
    } else {
      EnqueuedContents(next, news[1..], k - 1);
      assert news[1..][k - 1] == news[k];
      assert |next| + (k - 1) == |store| + k;
    }
  }

  /** The status and result text the worker writes for a handler's outcome. */
  function Verdict(outcome: Outcome): (Status, string) {
    match outcome
    case Returned(v) => (Done, v)
    case Raised(e) => (Failed, e)
  }

  /**
   * The final state of a record the worker took up: `done` with the handler's
   * result (kept only if non-empty, `result or ""`) or `failed` with the
   * exception text.
   */
  function Settle(t: Task, outcome: Outcome): (u: Task)
    ensures u.status == Done || u.status == Failed
    ensures u.id == t.id && u.kind == t.kind && u.payload == t.payload && u.created == t.created
    ensures outcome.Returned? ==> u.status == Done
    ensures outcome.Raised? ==> u.status == Failed
    ensures outcome.Returned? ==> u.result == if outcome.value != "" then Some(outcome.value) else t.result
    ensures outcome.Raised? ==> u.result == if outcome.message != "" then Some(outcome.message) else t.result
  {
    WithStatus(WithStatus(t, Running, ""), Verdict(outcome).0, Verdict(outcome).1)
  }

  /** What one drain pass promises of a well-numbered store, after the first `i` snapshot records. */
  predicate DrainedUpTo(store: Store, r: Store, i: nat, handler: Task -> Handled)
    requires i <= |store|
  {
    && |r| >= |store|
    && WellNumbered(r)
    && (forall k :: 0 <= k < i ==>
          r[k] == if store[k].status == Pending then Settle(store[k], handler(store[k]).outcome) else store[k])
    && (forall k :: i <= k < |store| ==> r[k] == store[k])
    && (forall k :: |store| <= k < |r| ==> r[k].status == Pending)
  }

  /** Every snapshot record settled or untouched, and everything appended still pending. */
  predicate DrainedFrom(store: Store, r: Store, handler: Task -> Handled) {
    DrainedUpTo(store, r, |store|, handler)
  }

  /** The worker's handling of one pending record `t`, against the current store `r`. */
  function ProcessTask(r: Store, t: Task, handler: Task -> Handled): (r': Store)
    ensures |r'| == |r| + |handler(t).enqueued|
  {
    var running := UpdateTaskStatus(r, t.id, Running, "");
    var h := handler(t);
    var grown := EnqueueAll(running, h.enqueued);
    UpdateTaskStatus(grown, t.id, Verdict(h.outcome).0, Verdict(h.outcome).1)
  }

  /**
   * Lookup is by id: the record settled is the first one carrying `t`'s id,
   * and every other old record, including a later one with the same id, is
   * left as it was; old ids are kept.
   */
  lemma ProcessTaskEffect(r: Store, t: Task, handler: Task -> Handled)
    ensures var r' := ProcessTask(r, t, handler);
      && (forall k :: 0 <= k < |r| ==> r'[k].id == r[k].id)
      && (forall k :: 0 <= k < |r| && k != FirstWithId(r, t.id) ==> r'[k] == r[k])
      && (FirstWithId(r, t.id) < |r| ==> r'[FirstWithId(r, t.id)] == Settle(r[FirstWithId(r, t.id)], handler(t).outcome))
  {
    var running := UpdateTaskStatus(r, t.id, Running, "");
    var grown := EnqueueAll(running, handler(t).enqueued);
    assert grown[..|running|] == running;
    SettleInGrown(r, grown, t.id, Verdict(handler(t).outcome).0, Verdict(handler(t).outcome).1);
  }

  /** The final update of `ProcessTask`, on a store grown from the running one. */
  lemma SettleInGrown(r: Store, grown: Store, id: string, status: Status, result: string)
    requires |r| <= |grown|
    requires forall k :: 0 <= k < |r| ==> grown[k] == UpdateTaskStatus(r, id, Running, "")[k]
    ensures var u := UpdateTaskStatus(grown, id, status, result);
      && (forall k :: 0 <= k < |r| ==> u[k].id == r[k].id)
      && (forall k :: 0 <= k < |r| && k != FirstWithId(r, id) ==> u[k] == r[k])
      && (FirstWithId(r, id) < |r| ==>
            u[FirstWithId(r, id)] == WithStatus(WithStatus(r[FirstWithId(r, id)], Running, ""), status, result))
  {
    var running := UpdateTaskStatus(r, id, Running, "");
    assert forall k :: 0 <= k < |r| ==> grown[k].id == r[k].id;
    if FirstWithId(r, id) < |r| {
      FirstWithIdPrefix(r, grown, id);
    } else {
      assert forall k :: 0 <= k < |r| ==> grown[k] == r[k];
    }
  }

  /** A store whose ids start like `a`'s finds a matching id of `a` at the same place. */
  lemma FirstWithIdPrefix(a: Store, b: Store, id: string)
    requires |a| <= |b| && forall k :: 0 <= k < |a| ==> b[k].id == a[k].id
    requires FirstWithId(a, id) < |a|
    ensures FirstWithId(b, id) == FirstWithId(a, id)
  {
    var i := FirstWithId(a, id);
    var j := FirstWithId(b, id);
    assert b[i].id == id;
    assert j <= i;
    assert b[j].id == a[j].id;
  }

  /** Marking record `i` running and enqueueing keeps old records other than `i` and numbers the rest. */
  lemma RunAndEnqueue(r: Store, i: nat, news: seq<NewTask>)
    requires WellNumbered(r) && i < |r|
    ensures var grown := EnqueueAll(UpdateTaskStatus(r, TaskId(i + 1), Running, ""), news);
      && WellNumbered(grown) && |grown| >= |r|
      && grown[i] == WithStatus(r[i], Running, "")
      && (forall k :: 0 <= k < |r| && k != i ==> grown[k] == r[k])
      && (forall k :: |r| <= k < |grown| ==> grown[k].status == Pending)
  {
    var running := UpdateTaskStatus(r, TaskId(i + 1), Running, "");
    UpdateWellNumbered(r, i, Running, "");
    var grown := EnqueueAll(running, news);
    assert grown[..|r|] == running;
    assert forall k :: 0 <= k < |r| ==> grown[k] == running[k];
  }

  /** The final update of record `i` settles it and leaves every other record alone. */
  lemma SettleStep(grown: Store, i: nat, t: Task, outcome: Outcome)
    requires WellNumbered(grown) && i < |grown| && grown[i] == WithStatus(t, Running, "")
    ensures var final := UpdateTaskStatus(grown, TaskId(i + 1), Verdict(outcome).0, Verdict(outcome).1);
      && WellNumbered(final) && |final| == |grown|
      && final[i] == Settle(t, outcome)
      && (forall k :: 0 <= k < |grown| && k != i ==> final[k] == grown[k])
  {
    UpdateWellNumbered(grown, i, Verdict(outcome).0, Verdict(outcome).1);
  }

  /** In a well-numbered store, processing record `i` settles it and touches no other old record. */
  lemma ProcessWellNumbered(r: Store, i: nat, handler: Task -> Handled)
    requires WellNumbered(r) && i < |r|
    ensures var r' := ProcessTask(r, r[i], handler);
      && WellNumbered(r') && |r'| >= |r|
      && r'[i] == Settle(r[i], handler(r[i]).outcome)
      && (forall k :: 0 <= k < |r| && k != i ==> r'[k] == r[k])
      && (forall k :: |r| <= k < |r'| ==> r'[k].status == Pending)
  {
    var t := r[i];
    assert t.id == TaskId(i + 1);
    var h := handler(t);
    RunAndEnqueue(r, i, h.enqueued);
    var grown := EnqueueAll(UpdateTaskStatus(r, TaskId(i + 1), Running, ""), h.enqueued);
    SettleStep(grown, i, t, h.outcome);
  }

  /** Handling the next pending snapshot record extends the drained prefix by one. */
  lemma DrainStep(store: Store, r: Store, i: nat, handler: Task -> Handled)
    requires i < |store| && store[i].status == Pending
    requires DrainedUpTo(store, r, i, handler)
    ensures DrainedUpTo(store, ProcessTask(r, store[i], handler), i + 1, handler)
  {
    assert r[i] == store[i];
    ProcessWellNumbered(r, i, handler);
  }

  /**
   * `start_worker`: one pass over a snapshot of the store. Each record pending
   * in the snapshot is marked running, handed to `handler`, then marked done or
   * failed; tasks the handler enqueues are left pending for a later pass.
   */
  method StartWorker(store: Store, handler: Task -> Handled) returns (r: Store)
    ensures NoPending(store) ==> r == store
    ensures WellNumbered(store) ==> DrainedFrom(store, r, handler)
  {
    var snapshot := store;
    r := store;
    var i := 0;
    while i < |snapshot|
      invariant 0 <= i <= |snapshot|
      invariant NoPending(store) ==> r == store
      invariant WellNumbered(store) ==> DrainedUpTo(store, r, i, handler)
    {
      var t := snapshot[i];
      if t.status == Pending {
        if WellNumbered(store) {
          DrainStep(store, r, i, handler);
        }
        r := ProcessTask(r, t, handler);
      }
      i := i + 1;
    }
  }
}

=== FILE: updater.dfy ===
/**
 * The auto-updater: web snippets, an LLM's feature ideas, the ideas kept as a
 * note, and optionally one `research` task per idea line.
 */
module Updater {
  import opened Wrappers
  import opened Strings
  import opened Oracles
  import Notes
  import Tasks
  import Knowledge

  /** `_call_llm`: the stripped response, or an error text (which may be empty). */
  function CallLlm(model: string, prompt: string, url: string, llm: Llm): (r: (string, Option<string>))
    ensures r.1.Some? ==> r.0 == ""
    ensures var reply := llm(GenerateRequest(GenerateUrl(url), model, prompt));
      && (reply.Raised? ==> r.1 == Some(reply.reason))
      && (reply.ErrorField? ==> r.1 == Some(reply.error))
      && (reply.Completed? ==> r == (ResponseText(reply.response), None))
  {
    match llm(GenerateRequest(GenerateUrl(url), model, prompt))
    case Raised(e) => ("", Some(e))
    case ErrorField(e) => ("", Some(e))
    case Completed(response) => (ResponseText(response), None)
  }

  /** Python's truth value of the error: present and non-empty. */
  predicate Truthy(err: Option<string>) {
    err.Some? && err.value != ""
  }

  /** Lines that are not blank, in order. */
  function NonBlankLines(lines: seq<string>): (r: seq<string>)
    ensures |r| <= |lines|
    ensures forall i :: 0 <= i < |r| ==> !IsBlank(r[i])
    ensures r == [] <==> forall i :: 0 <= i < |lines| ==> IsBlank(lines[i])
    decreases |lines|
  {
    if lines == [] then []
    else
      var rest := NonBlankLines(lines[1..]);
      assert forall i :: 1 <= i < |lines| ==> lines[i] == lines[1..][i - 1];
      if IsBlank(lines[0]) then rest else [lines[0]] + rest
  }

  /** No blank line is dropped from lines that have none. */
  lemma {:induction false} NonBlankKeepsAll(lines: seq<string>)
    requires forall i :: 0 <= i < |lines| ==> !IsBlank(lines[i])
    ensures NonBlankLines(lines) == lines
    decreases |lines|
  {
    if lines != [] {
      NonBlankKeepsAll(lines[1..]);
    }
  }

  /** A one-line list keeps its line exactly when it is not blank. */
  lemma NonBlankSingle(line: string)
    ensures NonBlankLines([line]) == if IsBlank(line) then [] else [line]
  {
    assert [line][1..] == [];
  }

  /**
   * Filtering distributes over concatenation; with `NonBlankSingle` this says
   * every non-blank line is kept, every blank one dropped, in order.
   */
  lemma {:induction false} NonBlankConcat(a: seq<string>, b: seq<string>)
    ensures NonBlankLines(a + b) == NonBlankLines(a) + NonBlankLines(b)
    decreases |a|
  {
    if a == [] {
      assert a + b == b;
    } else {
      assert (a + b)[1..] == a[1..] + b;
      NonBlankConcat(a[1..], b);
    }
  }

  /** The characters `ln.strip("-• ")` cuts off an idea line. */
  const BulletMarks: set<char> := {'-', '•', ' '}

  /** `ln.strip("-• ").strip()`: bullet marks and spaces off the ends, then whitespace. */
  function IdeaTopic(line: string): (topic: string)
    ensures topic != [] ==> topic[0] !in WhiteSpace && topic[|topic| - 1] !in WhiteSpace
    ensures |topic| <= |line|
  {
    Strip(StripBy(line, BulletMarks))
  }

  /**
   * The topic is a contiguous part of its line: only bullet marks, spaces and
   * whitespace are cut off its ends.
   */
  lemma IdeaTopicTrimsLine(line: string)
    ensures TrimOf(IdeaTopic(line), line, BulletMarks + WhiteSpace)
  {
    var bare := StripBy(line, BulletMarks);
    StripByTrims(line, BulletMarks);
    StripByTrims(bare, WhiteSpace);
    TrimOfTrans(IdeaTopic(line), bare, line, WhiteSpace, BulletMarks);
  }

  /**
   * The topic is exactly the word between the bullet marks: any run of marks
   * on either side goes, and nothing of a word whose ends are neither marks
   * nor whitespace.
   */
  lemma IdeaTopicOfBulleted(p: string, w: string, q: string)
    requires forall k :: 0 <= k < |p| ==> p[k] in BulletMarks
    requires forall k :: 0 <= k < |q| ==> q[k] in BulletMarks
    requires w != [] && w[0] !in BulletMarks + WhiteSpace && w[|w| - 1] !in BulletMarks + WhiteSpace
    ensures IdeaTopic(p + w + q) == w
  {
    StripByAround(p, w, q, BulletMarks);
    StripByFixed(w, WhiteSpace);
  }

  /**
   * The two strips run once each, marks first: a tab before a bullet stops the
   * first strip, so the second leaves the bullet in the topic.
   */
  lemma IdeaTopicKeepsInnerBullet()
    ensures IdeaTopic("\t-x") == "-x"
  {
    TabLineKeepsMarks();
    TabLineSpaceOff();
  }

  lemma TabLineKeepsMarks()
    ensures StripBy("\t-x", BulletMarks) == "\t-x"
  {
    assert "\t-x"[0] == '\t' && "\t-x"[2] == 'x';
    AlnumNotBullet('x');
    TabNotBullet();
    StripByFixed("\t-x", BulletMarks);
  }

  lemma TabLineSpaceOff()
    ensures Strip("\t-x") == "-x"
  {
    assert "\t-x" == "\t" + "-x";
    assert "-x"[0] == '-' && "-x"[1] == 'x';
    AlnumNotSpace('x');
    DashNotSpace();
    TabIsSpace();
    StripByPrefix("\t", "-x", WhiteSpace);
  }

  lemma TabIsSpace()
    ensures forall k :: 0 <= k < |"\t"| ==> "\t"[k] in WhiteSpace
  {
  }

  lemma TabNotBullet()
    ensures '\t' !in BulletMarks
  {
  }

  lemma DashNotSpace()
    ensures '-' !in WhiteSpace
  {
  }

  lemma AlnumNotBullet(c: char)
    requires IsAlnum(c)
    ensures c !in BulletMarks
  {
  }

  /** A bullet and its space come off an idea line. */
  lemma IdeaTopicExample()
    ensures IdeaTopic("- foo") == "foo"
  {
    BulletOffExample();
    assert "foo"[0] == 'f' && "foo"[2] == 'o';
    AlnumNotSpace('f');
    AlnumNotSpace('o');
    StripByFixed("foo", WhiteSpace);
  }

  lemma BulletOffExample()
    ensures StripBy("- foo", BulletMarks) == "foo"
  {
    assert "- foo" == "- " + "foo";
    assert "foo"[0] == 'f' && "foo"[2] == 'o';
    AlnumNotBullet('f');
    AlnumNotBullet('o');
    StripByPrefix("- ", "foo", BulletMarks);
  }

  /** The topics of an ideas text, one per non-blank line, in order. */
  function IdeaTopics(text: string): (topics: seq<string>)
    ensures |topics| == |NonBlankLines(SplitLines(text))|
    ensures forall i :: 0 <= i < |topics| ==> topics[i] == IdeaTopic(NonBlankLines(SplitLines(text))[i])
  {
    var lines := NonBlankLines(SplitLines(text));
    seq(|lines|, i requires 0 <= i < |lines| => IdeaTopic(lines[i]))
  }

  /** A line of nothing but a bullet mark is kept as a task with an empty topic. */
  lemma BareBulletEmptyTopic()
    ensures IdeaTopics("-") == [""]
  {
    assert SplitLines("-") == ["-"] by {
      SplitJoinLines(["-"]);
    }
    assert !IsBlank("-") by {
      assert "-"[0] !in WhiteSpace;
    }
  }

  /** The research task for one idea topic. */
  function ResearchTask(topic: string, created: string): Tasks.NewTask {
    Tasks.NewTask("research", map["topic" := topic], created)
  }

  function ResearchTasks(topics: seq<string>, created: string): (news: seq<Tasks.NewTask>)
    ensures |news| == |topics|
    ensures forall i :: 0 <= i < |topics| ==> news[i] == ResearchTask(topics[i], created)
  {
    seq(|topics|, i requires 0 <= i < |topics| => ResearchTask(topics[i], created))
  }

  const IdeasTopic := "orion_ideas"

  /** The state the updater touches, and its reply. */
  datatype Proposed = Proposed(files: Files, store: Tasks.Store, message: string)

  function IdeasPrompt(snippets: seq<string>): string {
    "You are an AI product assistant for Orion. Based on these web snippets, propose 3 concrete feature ideas "
      + "for Orion with a short action step each. Keep it concise, one line per idea.\n\n"
      + Bullets(snippets)
  }

  /** What becomes of the LLM's ideas: a note, then (with the flag) the tasks. */
  function Logged(fs: Files, store: Tasks.Store, ideas: string, addTasks: bool, ts: string): (r: Proposed)
    requires ideas != ""
    ensures r.files == Notes.AppendNote(fs, IdeasTopic, ideas, "auto-updater", ts).files
    ensures !addTasks ==> r.store == store
    ensures addTasks ==> r.store == Tasks.EnqueueAll(store, ResearchTasks(IdeaTopics(ideas), ts))
    ensures r.message == "\U{1F680} Auto-updater ideas logged:\n" + ideas
  {
    var files := Notes.AppendNote(fs, IdeasTopic, ideas, "auto-updater", ts).files;
    var store' := if addTasks then Tasks.EnqueueAll(store, ResearchTasks(IdeaTopics(ideas), ts)) else store;
    Proposed(files, store', "\U{1F680} Auto-updater ideas logged:\n" + ideas)
  }

  const KeyMissing := "\U{274C} SerpAPI key missing; cannot auto-update."
  const NoSnippets := "\U{274C} No snippets fetched; cannot propose updates."
  const NoIdeas := "\U{274C} LLM returned no ideas."

  /**
   * `propose_updates`, an early-return ladder: no key, no snippets, an LLM
   * error, no ideas; each rung returns before anything is written. `ts` is
   * the time stamped on the note and the tasks.
   */
  function ProposeUpdates(fs: Files, store: Tasks.Store, topic: string, apiKey: string, model: string,
                          url: string, addTasks: bool, ts: string,
                          search: Knowledge.Search, llm: Llm): (r: Proposed)
    ensures apiKey == "" ==> r == Proposed(fs, store, KeyMissing)
    ensures apiKey != "" && Knowledge.FetchWebSnippets(topic, apiKey, search) == [] ==>
      r == Proposed(fs, store, NoSnippets)
  {
    if apiKey == "" then Proposed(fs, store, KeyMissing)
    else
      var snippets := Knowledge.FetchWebSnippets(topic, apiKey, search);
      if snippets == [] then Proposed(fs, store, NoSnippets)
      else
        Answered(fs, store, CallLlm(model, IdeasPrompt(snippets), url, llm), addTasks, ts)
  }

  /** The last rungs of the ladder, given what `_call_llm` returned: an error, no ideas, or ideas to log. */
  function Answered(fs: Files, store: Tasks.Store, answer: (string, Option<string>), addTasks: bool, ts: string): (r: Proposed)
    ensures Truthy(answer.1) || answer.0 == "" ==> r.files == fs && r.store == store
    ensures !Truthy(answer.1) && answer.0 != "" ==> r == Logged(fs, store, answer.0, addTasks, ts)
  {
    var (ideas, err) := answer;
    if Truthy(err) then Proposed(fs, store, "\U{274C} LLM error: " + err.value)
    else if ideas == "" then Proposed(fs, store, NoIdeas)
    else Logged(fs, store, ideas, addTasks, ts)
  }

  /** Without a key or snippets the LLM is never asked. */
  lemma NoSnippetsNoCall(fs: Files, store: Tasks.Store, topic: string, apiKey: string, model: string,
                         url: string, addTasks: bool, ts: string, search: Knowledge.Search, llm1: Llm, llm2: Llm)
    requires apiKey == "" || Knowledge.FetchWebSnippets(topic, apiKey, search) == []
    ensures ProposeUpdates(fs, store, topic, apiKey, model, url, addTasks, ts, search, llm1)
         == ProposeUpdates(fs, store, topic, apiKey, model, url, addTasks, ts, search, llm2)
  {
  }

  /**
   * Once snippets exist: an LLM failure or an empty answer writes nothing;
   * otherwise the ideas are noted, and with the flag set one `research` task
   * per non-blank idea line is appended, in order, after the existing tasks.
   */
  lemma ProposeOutcome(fs: Files, store: Tasks.Store, topic: string, apiKey: string, model: string,
                       url: string, addTasks: bool, ts: string, search: Knowledge.Search, llm: Llm)
    requires apiKey != ""
    requires Knowledge.FetchWebSnippets(topic, apiKey, search) != []
    ensures var reply := llm(GenerateRequest(GenerateUrl(url), model, IdeasPrompt(Knowledge.FetchWebSnippets(topic, apiKey, search))));
      var r := ProposeUpdates(fs, store, topic, apiKey, model, url, addTasks, ts, search, llm);
      && (!reply.Completed? || ResponseText(reply.response) == "" ==> r.files == fs && r.store == store)
      && (reply.Completed? && ResponseText(reply.response) != "" ==>
            var ideas := ResponseText(reply.response);
            && r.files == Notes.AppendNote(fs, IdeasTopic, ideas, "auto-updater", ts).files
            && (addTasks ==> r.store == Tasks.EnqueueAll(store, ResearchTasks(IdeaTopics(ideas), ts)))
            && (!addTasks ==> r.store == store))
  {
    var snippets := Knowledge.FetchWebSnippets(topic, apiKey, search);
    assert ProposeUpdates(fs, store, topic, apiKey, model, url, addTasks, ts, search, llm)
        == Answered(fs, store, CallLlm(model, IdeasPrompt(snippets), url, llm), addTasks, ts);
  }

  /**
   * With the flag set, the `i`-th new task is a `research` task whose topic is
   * the `i`-th non-blank idea line's, numbered right after the existing tasks.
   */
  lemma IdeaTaskContents(store: Tasks.Store, ideas: string, ts: string, i: nat)
    requires i < |IdeaTopics(ideas)|
    ensures var r := Tasks.EnqueueAll(store, ResearchTasks(IdeaTopics(ideas), ts));
      && |r| == |store| + |NonBlankLines(SplitLines(ideas))|
      && r[|store| + i].id == Tasks.TaskId(|store| + i + 1)
      && r[|store| + i].kind == "research"
      && r[|store| + i].payload == map["topic" := IdeaTopic(NonBlankLines(SplitLines(ideas))[i])]
      && r[|store| + i].status == Tasks.Pending
  {
    Tasks.EnqueuedContents(store, ResearchTasks(IdeaTopics(ideas), ts), i);
  }
}

=== FILE: wrappers.dfy ===
/** Types shared by every module: Python's optional values, and files on disk. */
module Wrappers {

  /** The part of the file system an agent writes: path to content. */
  type Files = map<string, string>

  /** Python's `None` versus a present value. */
  datatype Option<+T> = None | Some(value: T) {

    /** The value, or `default` when absent (Python's `x if x is not None else default`). */
    function GetOr(default: T): T {
      match this
      case Some(v) => v
      case None => default
    }
  }
}
